=== FILE: README.md ===
# STM32WB serial driver model

A Dafny model of the Flipper Zero serial hardware-abstraction driver
(`furi_hal_serial`), which runs two asynchronous ports — the full USART1 and
the low-power LPUART1 — behind one interface: bring-up and teardown,
baud-rate changes, per-direction enable and disable, suspend and resume
around low-power periods, blocking transmit, and interrupt-driven receive
into one registered callback per port.

Each public call is a pure function from the port's state to a `Step`: the
state afterwards and the ordered trace of events — register writes,
busy-waits, vendor calls and driver-memory writes — the call issues; status
reads are branch conditions on the state, not events. A separate semantics
(`Hardware.Apply`, `Hardware.Run`) says what each event does to the state, and every call is
proved to *replay*: running its trace from the state it started in gives the
state it returns. The ordering properties the driver depends on — store the
callback before attaching the handler, detach before clearing — are proved on
every prefix of the trace, not only on the final state.

Modules:

- `SerialTypes` (types.dfy) — fixed-width integers, the two ports, the two
  directions, per-direction and per-port tables.
- `SerialConfig` (config.dfy) — the constant descriptor table and the pin
  lookup.
- `Hardware` (hardware.dfy) — the abstract port state, the trace events,
  their semantics, trace replay.
- `BaudRate` (baud.dfy) — the advisory range check and the LPUART prescaler
  rule.
- `Serial` (serial.dfy) — the public calls and the interrupt handler.
- `SerialReplay` (replay.dfy) — every call's trace replays to its result;
  the interrupt wiring stays safe during registration.
- `SerialProperties` (properties.dfy) — properties relating several calls.
- `SerialDriver` (driver.dfy) — both ports together, a dispatcher over all
  calls, the hardware's own stimuli (byte arrival, interrupt delivery), and
  the wiring invariant kept by every reachable state.

Behaviour of the code that the model follows as written:

- Unregistering (null callback) detaches the interrupt handler first and
  disables the receive interrupt second.
- Unregistering stores the context pointer it is given, not a null one;
  teardown passes a null one.
- Suspending a port that is already disabled leaves the suspend flag as it
  was, so a pending suspend stays pending.
- Teardown does not clear the suspend flag: for a port suspended while
  running and then torn down, the next resume issues the enable write, which
  the model lets take effect although the bus clock is off
  (`SerialProperties.ResumeAfterDeinitReenables`).
- Registering a callback over a live registration writes the new context
  while the handler is still attached with the old callback: an interrupt
  taken after that first event calls the old callback with the new context
  (`SerialReplay.ReregisterTearsContext`). Registering from a detached
  handler, and unregistering, never mix the two pairs.
- The LPUART bring-up configures PC0 (receive) before PC1 (transmit); the
  USART configures its transmit pin first.
- On the LPUART a baud change always writes the prescaler, DIV1 or DIV32;
  on the USART it passes DIV1 to the divisor computation and leaves the
  prescaler register alone.

## Model

| member | source | states |
|---|---|---|
| `SerialConfig.Table` | targets/f7/furi_hal/furi_hal_serial.c:30-71 | the constant descriptor table: USART1 on its TX/RX pins with AF7, LPUART1 on PC1/PC0 with AF8, each with its own direction enable/disable routines (no contract; its properties are `SerialConfig.GetGpioPinInverse` and `SerialConfig.TableControlsMatch`) |
| `SerialConfig.GetGpioPin` | targets/f7/furi_hal/furi_hal_serial.c:370-377 | the pin of (port, direction) belongs to that port and carries that direction; USART uses its dedicated TX/RX pins, LPUART uses PC1 for TX and PC0 for RX |
| `SerialConfig.GetGpioPinInverse` | targets/f7/furi_hal/furi_hal_serial.c:30-71 | every pin of the table is bound to exactly one (port, direction) pair: lookup and read-back are inverse, both directions of the iff |
| `SerialConfig.TableControlsMatch` | targets/f7/furi_hal/furi_hal_serial.c:30-71 | each entry's enable/disable routines act on that entry's own peripheral and on the direction they are filed under; USART1 with AF7, LPUART1 with AF8 |
| `BaudRate.IsBaudRateSupported` | targets/f7/furi_hal/furi_hal_serial.c:160-163 | the advisory check: a rate is supported iff it lies in 9600..4000000, whatever the port (no contract; its properties are `BaudRate.SupportedBoundaries` and `BaudRate.SupportedIsInterval`) |
| `BaudRate.SupportedBoundaries` | targets/f7/furi_hal/furi_hal_serial.c:160-163 | 9600 and 4000000 are supported, 9599 and 4000001 are not, and the answer is the same for both ports |
| `BaudRate.SupportedIsInterval` | targets/f7/furi_hal/furi_hal_serial.c:160-163 | any rate between two supported rates is supported |
| `BaudRate.LpuartPrescaler` | targets/f7/furi_hal/furi_hal_serial.c:185-191 | the LPUART prescaler is DIV1 or DIV32, and DIV32 exactly when the clock is at least 4096 times the baud rate (`clk / baud > 4095`) |
| `Serial.BaudPrescaler` | targets/f7/furi_hal/furi_hal_serial.c:165-195 | a baud change selects DIV32 exactly on the LPUART with `clk / baud > 4095`, DIV1 otherwise |
| `Serial.IrqOf` | targets/f7/furi_hal/furi_hal_serial.c:314-332 | the interrupt vector set_rx_callback installs on or removes from: UART1 for the USART, LPUART1 for the LPUART (no contract; used by the traces of `Serial.SetRxCallback`) |
| `Serial.HandlerOf` | targets/f7/furi_hal/furi_hal_serial.c:326-332 | the handler registration installs: the USART handler for the USART, the LPUART handler for the LPUART (no contract; used by the trace of `Serial.SetRxCallback`) |
| `Serial.ClockSourceOf` | targets/f7/furi_hal/furi_hal_serial.c:76-116 | the kernel clock bring-up selects: PCLK2 for the USART, PCLK1 for the LPUART (no contract; used by the trace of `Serial.BringUpEvents`) |
| `Serial.InitParamsOf` | targets/f7/furi_hal/furi_hal_serial.c:92-138 | the parameter block of the vendor initialisation: 8N1, both directions, no flow control, undivided kernel clock, 16x oversampling on the USART only (no contract; its fields are read by `SerialReplay.FrameReplays`) |
| `Serial.BaudSettingOf` | targets/f7/furi_hal/furi_hal_serial.c:173-190 | the divisor call receives the queried clock and the requested rate; on the USART DIV1 with 16x oversampling, on the LPUART no oversampling mode and DIV32 exactly when the clock is at least 4096 times the rate |
| `Serial.BaudEvents` | targets/f7/furi_hal/furi_hal_serial.c:168-193 | on an enabled port: wait for transfer complete, disable, (LPUART) prescaler, divisor, enable — in that order, four events on the USART, five on the LPUART |
| `Serial.SetBaudRate` | targets/f7/furi_hal/furi_hal_serial.c:165-195 | no event and no change on a disabled port; otherwise the ordered baud events, the USART prescaler kept, the LPUART prescaler chosen by the 4095 rule, the new setting recorded and nothing else changed |
| `Serial.PinWrites` | targets/f7/furi_hal/furi_hal_serial.c:79-129 | two distinct pin writes covering both pins of the port, each with the given configuration |
| `Serial.FrameEvents` | targets/f7/furi_hal/furi_hal_serial.c:92-145 | peripheral set-up starts with the 8N1 parameter block and the FIFO, ends with enable then the acknowledge wait, and selects asynchronous mode exactly on the USART |
| `Serial.BringUpEvents` | targets/f7/furi_hal/furi_hal_serial.c:75-145 | bring-up begins with the bus clock and the clock source, then the two pin writes, then the peripheral set-up |
| `Serial.Init` | targets/f7/furi_hal/furi_hal_serial.c:75-158 | after init the bus clock is on, the port enabled with both directions and the transfer complete, both pins on the table's alternate function, the requested rate the last one programmed, the prescaler DIV32 exactly on an LPUART whose clock is at least 4096 times the rate; the suspend flag, registration, wiring and receive flags are untouched; the trace is bring-up, the baud events of an enabled port, error-interrupt disable |
| `Serial.PowerDownEvents` | targets/f7/furi_hal/furi_hal_serial.c:200-215 | teardown disables the bus clock iff it was on and the peripheral iff it was enabled, bus first |
| `Serial.Deinit` | targets/f7/furi_hal/furi_hal_serial.c:197-219 | the null-callback unregistration comes first, then the conditional power-down, then both pins to analog; afterwards bus off, disabled, unwired, and the suspend flag, prescaler and baud setting survive |
| `Serial.Suspend` | targets/f7/furi_hal/furi_hal_serial.c:221-230 | the port ends disabled; the flag becomes set iff the port was enabled, and is otherwise left as it was; a disabled port sees no event |
| `Serial.Resume` | targets/f7/furi_hal/furi_hal_serial.c:232-243 | with the flag set the port is enabled and the flag cleared; without it nothing happens; nothing else changes |
| `Serial.TxEvents` | targets/f7/furi_hal/furi_hal_serial.c:250-257 | the transmit loop's events, a wait for an empty data register then the write, per byte (no contract; its properties are `Serial.TxEventsShape`, `SerialProperties.TxEventsWrites` and `SerialProperties.TxEventsAppend`) |
| `Serial.TxEventsShape` | targets/f7/furi_hal/furi_hal_serial.c:250-257 | the transmit loop issues two events per byte: the wait for an empty data register, then the write of that byte |
| `Serial.Transmit` | targets/f7/furi_hal/furi_hal_serial.c:245-272 | a disabled port sees no event; an enabled one sees each byte written once, in order, each after its own wait |
| `Serial.TxWaitComplete` | targets/f7/furi_hal/furi_hal_serial.c:274-287 | no event on a disabled port; otherwise a single transfer-complete wait, after which the flag is set |
| `Serial.IrqHandler` | targets/f7/furi_hal/furi_hal_serial.c:289-307 | a pending byte is read and handed with the stored context to the stored callback; else a pending overrun is cleared; else nothing |
| `Serial.SetRxCallback` | targets/f7/furi_hal/furi_hal_serial.c:309-336 | null: detach handler, disable interrupt, store callback and context; non-null: store context and callback, attach handler, enable interrupt; the wiring ends attached iff the callback is non-null |
| `Serial.EnableDirection` | targets/f7/furi_hal/furi_hal_serial.c:338-353 | the table's enable routine for the direction, then its pin to the alternate function; the other direction and all else unchanged |
| `Serial.DisableDirection` | targets/f7/furi_hal/furi_hal_serial.c:355-368 | the table's disable routine for the direction, then its pin to analog; the other direction and all else unchanged |
| `Hardware.Apply` | targets/f7/furi_hal/furi_hal_serial.c:75-368 | the effect of each event the driver issues on the port state: each vendor call changes only the state bit it is documented to control (no contract; the `SerialReplay` lemmas prove every call's result is the replay of its trace under it) |
| `SerialReplay.SuspendReplays` | targets/f7/furi_hal/furi_hal_serial.c:221-230 | the suspend events, replayed, give the suspended state |
| `SerialReplay.ResumeReplays` | targets/f7/furi_hal/furi_hal_serial.c:232-243 | the resume events, replayed, give the resumed state |
| `SerialReplay.TxWaitCompleteReplays` | targets/f7/furi_hal/furi_hal_serial.c:274-287 | the completion wait, replayed, gives the state returned |
| `SerialReplay.IrqHandlerReplays` | targets/f7/furi_hal/furi_hal_serial.c:289-307 | each handler branch's events, replayed, give the state returned |
| `SerialReplay.SetRxCallbackReplays` | targets/f7/furi_hal/furi_hal_serial.c:309-336 | both registration sequences, replayed, give the registration state returned |
| `SerialReplay.DetachWiringSafe` | targets/f7/furi_hal/furi_hal_serial.c:314-323 | after every prefix of the unregistration sequence, an attached handler has a non-null callback to call |
| `SerialReplay.DetachWiringPairs` | targets/f7/furi_hal/furi_hal_serial.c:314-323 | after every prefix of the unregistration sequence the handler is either detached or exactly as before, with its old callback and context |
| `SerialReplay.AttachWiringSafe` | targets/f7/furi_hal/furi_hal_serial.c:324-335 | after every prefix of the registration sequence, an attached handler has a non-null callback to call |
| `SerialReplay.AttachWiringPairs` | targets/f7/furi_hal/furi_hal_serial.c:324-335 | from a detached handler, after every prefix of the registration sequence the handler is either detached or attached with the new callback and its own context |
| `SerialReplay.SetRxCallbackKeepsHandlerSafe` | targets/f7/furi_hal/furi_hal_serial.c:309-336 | an interrupt taken between any two events of set_rx_callback never finds the handler attached with a null callback |
| `SerialReplay.UnregisterPairsContext` | targets/f7/furi_hal/furi_hal_serial.c:314-323 | an interrupt taken between any two events of an unregistration finds no handler, or the callback registered before with its own context |
| `SerialReplay.RegisterPairsContext` | targets/f7/furi_hal/furi_hal_serial.c:324-335 | on a port whose handler is detached, an interrupt taken between any two events of a registration finds no handler, or the new callback with the new context |
| `SerialReplay.ReregisterTearsContext` | targets/f7/furi_hal/furi_hal_serial.c:324-326 | registering over a live registration stores the new context while the old callback is attached, so an interrupt after that event hands a pending byte to the old callback with the new context |
| `SerialReplay.EnableDirectionReplays` | targets/f7/furi_hal/furi_hal_serial.c:338-353 | the enable-direction events, replayed, give the state returned |
| `SerialReplay.DisableDirectionReplays` | targets/f7/furi_hal/furi_hal_serial.c:355-368 | the disable-direction events, replayed, give the state returned |
| `SerialReplay.SetBaudRateReplays` | targets/f7/furi_hal/furi_hal_serial.c:165-195 | the baud-change events, replayed, give the state returned, on both ports |
| `SerialReplay.PinWritesReplays` | targets/f7/furi_hal/furi_hal_serial.c:79-129 | the two pin writes leave both pins of the port in the written configuration |
| `SerialReplay.FrameReplays` | targets/f7/furi_hal/furi_hal_serial.c:92-145 | the peripheral set-up leaves the port enabled with both directions and the undivided clock |
| `SerialReplay.BringUpReplays` | targets/f7/furi_hal/furi_hal_serial.c:75-145 | the whole bring-up before the baud change gives the brought-up state |
| `SerialReplay.InitReplays` | targets/f7/furi_hal/furi_hal_serial.c:151-158 | the full init trace, replayed, gives the initialised state |
| `SerialReplay.PowerDownReplays` | targets/f7/furi_hal/furi_hal_serial.c:200-215 | the conditional power-down leaves bus clock and peripheral off |
| `SerialReplay.DeinitReplays` | targets/f7/furi_hal/furi_hal_serial.c:197-219 | the teardown trace, replayed, gives the torn-down state |
| `SerialReplay.TxEventsReplays` | targets/f7/furi_hal/furi_hal_serial.c:250-257 | the transmit loop leaves the state alone for an empty buffer and clears the empty and complete flags otherwise |
| `SerialReplay.TransmitReplays` | targets/f7/furi_hal/furi_hal_serial.c:245-272 | the transmit trace, replayed, gives the state returned |
| `SerialProperties.SuspendIdempotent` | targets/f7/furi_hal/furi_hal_serial.c:221-230 | a second suspend does nothing |
| `SerialProperties.ResumeIdempotent` | targets/f7/furi_hal/furi_hal_serial.c:232-243 | resume without a pending suspend does nothing, so a second resume does nothing |
| `SerialProperties.SuspendResumeRoundTrip` | targets/f7/furi_hal/furi_hal_serial.c:221-243 | suspend then resume of a running port restores it, flag cleared, after disable, flag set, enable, flag clear |
| `SerialProperties.SuspendKeepsPendingFlag` | targets/f7/furi_hal/furi_hal_serial.c:223-229 | suspending an already-suspended port keeps the suspend pending, so the next resume re-enables it |
| `SerialProperties.ResumeAfterDeinitReenables` | targets/f7/furi_hal/furi_hal_serial.c:197-243 | teardown keeps a pending suspend, so a following resume enables the peripheral with its bus clock off |
| `SerialProperties.SetBaudRateIdempotent` | targets/f7/furi_hal/furi_hal_serial.c:165-195 | requesting the same rate twice leaves the port as requesting it once |
| `SerialProperties.InitThenSetBaudRate` | targets/f7/furi_hal/furi_hal_serial.c:75-195 | a baud change right after init gives the state init at the new rate gives |
| `SerialProperties.LpuartPrescalerExamples` | targets/f7/furi_hal/furi_hal_serial.c:185-191 | at 64 MHz, 9600 baud divides by 32 and 115200 does not; the switch sits at clock = 4096 x baud |
| `SerialProperties.DeinitAfterInit` | targets/f7/furi_hal/furi_hal_serial.c:197-219 | tearing down a running port is unregistration, bus off, peripheral off, pins analog |
| `SerialProperties.DeinitIdempotent` | targets/f7/furi_hal/furi_hal_serial.c:197-219 | a second teardown changes nothing and only repeats the unregistration and the pin writes |
| `SerialProperties.TxEventsWrites` | targets/f7/furi_hal/furi_hal_serial.c:250-257 | the transmit loop writes exactly the buffer, in order |
| `SerialProperties.TransmitWrites` | targets/f7/furi_hal/furi_hal_serial.c:245-272 | the bytes written are the buffer on an enabled port and none on a disabled one |
| `SerialProperties.TxEventsAppend` | targets/f7/furi_hal/furi_hal_serial.c:250-257 | the loop's events for a concatenated buffer are the concatenation of the parts' |
| `SerialProperties.TransmitSplit` | targets/f7/furi_hal/furi_hal_serial.c:245-272 | sending a buffer in two calls issues the same events and ends in the same state as one call |
| `SerialProperties.TransmitThenWaitComplete` | targets/f7/furi_hal/furi_hal_serial.c:274-287 | after a transmit, the completion wait is one event that sets the complete flag; a second wait changes nothing |
| `SerialProperties.IrqHandlerOneBranch` | targets/f7/furi_hal/furi_hal_serial.c:289-307 | one handler run calls the callback at most once, and does so iff a byte was pending; it clears an overrun only when no byte was pending |
| `SerialProperties.RegisterThenUnregister` | targets/f7/furi_hal/furi_hal_serial.c:309-336 | registering then unregistering leaves the port unwired with a null callback and the last context |
| `SerialProperties.DirectionsCommute` | targets/f7/furi_hal/furi_hal_serial.c:338-368 | switches on the two directions of a port commute |
| `SerialProperties.LastDirectionSwitchWins` | targets/f7/furi_hal/furi_hal_serial.c:338-368 | the last switch of a direction alone decides its enable bit and pin |
| `SerialProperties.DisableEnableAfterInit` | targets/f7/furi_hal/furi_hal_serial.c:338-368 | after init, disabling then enabling a direction restores the port exactly |
| `SerialDriver.Interrupt` | targets/f7/furi_hal/furi_hal_serial.c:289-307 | the handler runs only while attached with the interrupt enabled and something pending; any callback it calls is the stored non-null one with the data register and stored context |
| `SerialDriver.DispatchKeepsWired` | targets/f7/furi_hal/furi_hal_serial.c:151-368 | every public call keeps "handler attached iff interrupt enabled iff callback non-null" |
| `SerialDriver.Exec` | targets/f7/furi_hal/furi_hal_serial.c:14-18 | a call or hardware event on one port leaves the other port's state, driver memory included, untouched, and keeps both ports wired |
| `SerialDriver.ExecAll` | targets/f7/furi_hal/furi_hal_serial.c:309-336 | from a wired system, every sequence of calls, byte arrivals and interrupts is defined — no interrupt meets a null callback — and keeps it wired |
| `SerialDriver.ReachableHandlerSafe` | targets/f7/furi_hal/furi_hal_serial.c:73 | from the zeroed driver memory at reset, an attached handler always has a non-null callback and an enabled interrupt |
| `SerialDriver.RegisteredByteDelivered` | targets/f7/furi_hal/furi_hal_serial.c:289-336 | after registering, a received byte reaches the callback exactly once, with that byte and the registered context |
| `SerialDriver.UnregisteredByteIgnored` | targets/f7/furi_hal/furi_hal_serial.c:314-323 | after unregistering, a received byte triggers no handler event and no callback |
| `SerialDriver.OverrunLosesSecondByte` | targets/f7/furi_hal/furi_hal_serial.c:289-297 | under the single-slot byte arrival of the model (the part's FIFO is left out), of two bytes received before the handler runs the first is delivered, the overrun is cleared by the next run without a callback, then the port is quiet |

## Left out

- Register-level effects of the vendor library (divisor arithmetic of the baud-rate call, the contents of the init routines): each call is recorded with its arguments, and only the state bit it is documented to control changes.
- The range of divisors the hardware accepts; out-of-range rates are programmed like any other, as in the code.
- Busy-wait loops are single events assumed to finish; a wait that never ends (a missing acknowledge, a stuck flag) is not modelled, and the transmit- and receive-enable acknowledge flags carry no state.
- The kernel clock frequency query of the clock controller is the parameter `clk`.
- A zero LPUART baud rate in init, or in a baud change of an enabled LPUART, divides by zero in the code; those calls are excluded by preconditions.
- The null-handle and out-of-range checks abort in the code; here the port and direction are closed enumerations, so these paths cannot be written down.
- Status reads (the enable bit, the bus-clock state, the RXNE and ORE flags, the kernel clock query) are branch conditions on the state, not trace events; the enable-bit read that teardown makes after switching the bus clock off sees the last value written.
- Interrupt preemption is modelled between the events of set_rx_callback only; callers are assumed to serialise the other calls on a port, as the driver requires.
- What the callback does when called; it is an event carrying the callback, the byte and the context.
- Register writes while the bus clock is off take effect in the model: teardown disables the bus clock before the peripheral, and the model still clears the enable bit.
- GPIO, bus-clock, clock-source and interrupt-controller internals beyond the state bits above; the error-interrupt disable and the FIFO enable carry no state.
- The receive FIFO: the hardware's arrival of a byte (`SerialDriver.Receive`) has a single data slot, so a second unread byte raises an overrun at once.
- The error interrupt enable bit: the overrun branch of the handler is reached through the receive interrupt only.
- SerialReplay.RegisterPairsContext: the new pair is promised only when the handler starts detached; over a live registration the code mixes the old callback with the new context for one event (`SerialReplay.ReregisterTearsContext`).
- SerialDriver.ExecAll: requires a non-zero LPUART baud rate for every baud-change stimulus, also on a disabled port where the code does not divide, so that the requirement does not depend on the state.
- SerialDriver.Exec: the same state-independent non-zero baud requirement as ExecAll.
- SerialDriver.ReachableHandlerSafe: the same state-independent non-zero baud requirement as ExecAll.

=== FILE: baud.dfy ===
/** Baud-rate rules: the advisory supported range and the LPUART prescaler
    fallback. */
module BaudRate {
  import opened SerialTypes
  import opened Hardware

  const MinBaud: u32 := 9600
  const MaxBaud: u32 := 4000000

  /** Largest `clk / baud` quotient the LPUART runs with the undivided
      kernel clock. */
  const LpuartDiv1Limit: u32 := 4095

  /** The advisory range check. It ignores the port and the hardware. */
  predicate IsBaudRateSupported(id: SerialId, baud: u32) {
    baud >= MinBaud && baud <= MaxBaud
  }

  /** Both end points are accepted, the values just outside are rejected,
      and the answer does not depend on the port. */
  lemma SupportedBoundaries(id: SerialId)
    ensures IsBaudRateSupported(id, 9600) && IsBaudRateSupported(id, 4000000)
    ensures !IsBaudRateSupported(id, 9599) && !IsBaudRateSupported(id, 4000001)
    ensures forall b: u32 :: IsBaudRateSupported(id, b) == IsBaudRateSupported(id.Other(), b)
  {
  }

  /** The supported set is an interval: anything between two supported
      rates is supported. */
  lemma SupportedIsInterval(id: SerialId, lo: u32, mid: u32, hi: u32)
    requires IsBaudRateSupported(id, lo) && IsBaudRateSupported(id, hi)
    requires lo <= mid <= hi
    ensures IsBaudRateSupported(id, mid)
  {
  }

  /** Floor division crosses `k` exactly where `a` reaches `k * b`. */
  lemma DivAtLeast(a: int, b: int, k: int)
    requires a >= 0 && b > 0 && k >= 0
    ensures a / b >= k <==> a >= k * b
  {
    var q, m := a / b, a % b;
    assert a == b * q + m && 0 <= m < b;
    if q >= k {
      assert b * q >= b * k;
    } else {
      assert q <= k - 1;
      assert b * q <= b * (k - 1);
    }
  }

  /** The LPUART prescaler: the kernel clock is divided by 32 when the
      undivided divisor would exceed its range. */
  function LpuartPrescaler(clk: u32, baud: u32): (r: Prescaler)
    requires baud > 0
    ensures r == Div1 || r == Div32
    ensures r == Div32 <==> clk as int >= 4096 * baud as int
  {
    DivAtLeast(clk as int, baud as int, 4096);
    if clk / baud > LpuartDiv1Limit then Div32 else Div1
  }
}

=== FILE: config.dfy ===
/** The constant descriptor table: for each logical port, its peripheral,
    its pin alternate function, its pin per direction, and the vendor
    routines that switch one direction on or off. */
module SerialConfig {
  import opened SerialTypes

  /** The physical register blocks. */
  datatype Periph = Usart1 | Lpuart1

  /** The alternate-function selectors routing a pin to a peripheral. */
  datatype AltFn = AltFn7Usart1 | AltFn8Lpuart1

  /** The four pins the driver owns, named after their board resources. */
  datatype Pin = GpioUsartTx | GpioUsartRx | GpioExtPc1 | GpioExtPc0

  /** A per-direction control routine of the vendor library: `EnableDir`
      sets the direction's enable bit on `periph`, `DisableDir` clears it. */
  datatype ControlFunc =
    | EnableDir(periph: Periph, dir: Direction)
    | DisableDir(periph: Periph, dir: Direction)

  datatype Descriptor = Descriptor(
    periph: Periph,
    altFn: AltFn,
    gpio: PerDir<Pin>,
    enable: PerDir<ControlFunc>,
    disable: PerDir<ControlFunc>)

  /** The table, indexed by logical port. */
  function Table(id: SerialId): Descriptor {
    match id
    case Usart =>
      Descriptor(
        Usart1, AltFn7Usart1,
        PerDir(GpioUsartTx, GpioUsartRx),
        PerDir(EnableDir(Usart1, Tx), EnableDir(Usart1, Rx)),
        PerDir(DisableDir(Usart1, Tx), DisableDir(Usart1, Rx)))
    case Lpuart =>
      Descriptor(
        Lpuart1, AltFn8Lpuart1,
        PerDir(GpioExtPc1, GpioExtPc0),
        PerDir(EnableDir(Lpuart1, Tx), EnableDir(Lpuart1, Rx)),
        PerDir(DisableDir(Lpuart1, Tx), DisableDir(Lpuart1, Rx)))
  }

  /** The port a pin belongs to, read back from the table. */
  function PinPort(pin: Pin): SerialId {
    if pin == Table(Usart).gpio.tx || pin == Table(Usart).gpio.rx then Usart else Lpuart
  }

  /** The direction a pin carries, read back from the table. */
  function PinDirection(pin: Pin): Direction {
    if pin == Table(Usart).gpio.tx || pin == Table(Lpuart).gpio.tx then Tx else Rx
  }

  /** Pin lookup: the pin bound to `(id, d)`. USART uses the board's
      dedicated USART pins, LPUART uses PC1 for transmit and PC0 for
      receive. */
  function GetGpioPin(id: SerialId, d: Direction): (r: Pin)
    ensures PinPort(r) == id && PinDirection(r) == d
    ensures id == Usart ==> r == (if d == Tx then GpioUsartTx else GpioUsartRx)
    ensures id == Lpuart ==> r == (if d == Tx then GpioExtPc1 else GpioExtPc0)
  {
    Table(id).gpio.Get(d)
  }

  /** Every pin is bound to exactly one (port, direction) pair: the lookup
      and the read-back functions are inverse to each other. */
  lemma GetGpioPinInverse(id: SerialId, d: Direction, pin: Pin)
    ensures GetGpioPin(id, d) == pin <==> (PinPort(pin) == id && PinDirection(pin) == d)
  {
    if PinPort(pin) == id && PinDirection(pin) == d {
      match pin
      case GpioUsartTx =>
      case GpioUsartRx =>
      case GpioExtPc1 =>
      case GpioExtPc0 =>
    }
  }

  /** Each entry's control routines belong to the entry's own peripheral and
      act on the direction they are filed under. */
  lemma TableControlsMatch(id: SerialId, d: Direction)
    ensures Table(id).enable.Get(d) == EnableDir(Table(id).periph, d)
    ensures Table(id).disable.Get(d) == DisableDir(Table(id).periph, d)
    ensures Table(id).periph == (if id == Usart then Usart1 else Lpuart1)
    ensures Table(id).altFn == (if id == Usart then AltFn7Usart1 else AltFn8Lpuart1)
  {
  }
}

=== FILE: driver.dfy ===
/** The driver as a whole: both ports side by side, every public call
    dispatched to the port it names, and the two things the hardware does
    on its own — a byte arriving on a receive line, and the interrupt
    controller running the installed handler. */
module SerialDriver {
  import opened SerialTypes
  import opened SerialConfig
  import opened Hardware
  import opened BaudRate
  import opened Serial

  /** One public call on a port, with its arguments. */
  datatype Call =
    | CallInit(clk: u32, baud: u32)
    | CallDeinit
    | CallSuspend
    | CallResume
    | CallSetBaudRate(clk: u32, baud: u32)
    | CallTx(buf: seq<byte>)
    | CallTxWaitComplete
    | CallSetRxCallback(cb: Ptr, ctx: Ptr)
    | CallEnableDirection(d: Direction)
    | CallDisableDirection(d: Direction)

  /** What the driver divides by a baud rate: the LPUART's prescaler choice
      on init, and on a baud change of an enabled port. */
  predicate CallDefined(id: SerialId, p: PortState, c: Call) {
    match c
    case CallInit(_, baud) => id == Lpuart ==> baud > 0
    case CallSetBaudRate(_, baud) => id == Lpuart && p.enabled ==> baud > 0
    case _ => true
  }

  /** The public call `c` on port `id`. */
  function Dispatch(id: SerialId, p: PortState, c: Call): Step
    requires CallDefined(id, p, c)
  {
    match c
    case CallInit(clk, baud) => Init(id, p, clk, baud)
    case CallDeinit => Deinit(id, p)
    case CallSuspend => Suspend(p)
    case CallResume => Resume(p)
    case CallSetBaudRate(clk, baud) => SetBaudRate(id, p, clk, baud)
    case CallTx(buf) => Transmit(p, buf)
    case CallTxWaitComplete => TxWaitComplete(p)
    case CallSetRxCallback(cb, ctx) => SetRxCallback(id, p, cb, ctx)
    case CallEnableDirection(d) => EnableDirection(id, p, d)
    case CallDisableDirection(d) => DisableDirection(id, p, d)
  }

  /** A byte on the receive line of a running port: it lands in the
      data register, or, when the previous byte has not been read yet, it
      is lost and the overrun flag rises. A port whose bus clock, enable bit
      or receiver is off ignores the line. */
  function Receive(p: PortState, data: byte): (r: PortState)
    ensures !(p.busEnabled && p.enabled && p.dirEnabled.rx) ==> r == p
    ensures p.busEnabled && p.enabled && p.dirEnabled.rx && !p.rxne ==> r == p.(rxne := true, rdr := data)
    ensures p.busEnabled && p.enabled && p.dirEnabled.rx && p.rxne ==> r == p.(ore := true)
  {
    if !(p.busEnabled && p.enabled && p.dirEnabled.rx) then p
    else if p.rxne then p.(ore := true)
    else p.(rxne := true, rdr := data)
  }

  /** The handler is attached exactly while a non-null callback is stored,
      and the receive interrupt is enabled exactly while it is attached. */
  predicate Wired(p: PortState) {
    && p.isrAttached == p.rxIrqEnabled
    && (p.isrAttached <==> p.callback != NULL)
  }

  /** The interrupt controller: the installed handler runs when the
      receive interrupt is enabled and a byte or an overrun is pending. */
  function Interrupt(p: PortState): (r: Step)
    requires p.isrAttached ==> p.callback != NULL
    ensures !(p.isrAttached && p.rxIrqEnabled && (p.rxne || p.ore)) ==> r == Start(p)
    ensures forall i :: 0 <= i < |r.trace| && r.trace[i].InvokeCallback? ==>
      r.trace[i] == InvokeCallback(p.callback, p.rdr, p.context) && p.callback != NULL
  {
    if p.isrAttached && p.rxIrqEnabled && (p.rxne || p.ore) then IrqHandler(p) else Start(p)
  }

  /** Anything that can happen to the driver. */
  datatype Stimulus =
    | Invoke(id: SerialId, call: Call)
    | ByteArrives(id: SerialId, data: byte)
    | InterruptFires(id: SerialId)
  {
    function Port(): SerialId {
      match this
      case Invoke(id, _) => id
      case ByteArrives(id, _) => id
      case InterruptFires(id) => id
    }
  }

  /** Stimuli whose effect is defined in every state: an LPUART call that
      may pick a prescaler is given a non-zero baud rate. */
  predicate Admissible(st: Stimulus) {
    st.Invoke? && st.id == Lpuart && (st.call.CallInit? || st.call.CallSetBaudRate?) ==> st.call.baud > 0
  }

  /** Both ports, the state the whole driver lives in. */
  type System = PerPort<PortState>

  predicate SystemWired(s: System) {
    Wired(s.usart) && Wired(s.lpuart)
  }

  /** Every call keeps the wiring invariant of its port. */
  lemma DispatchKeepsWired(id: SerialId, p: PortState, c: Call)
    requires CallDefined(id, p, c) && Wired(p)
    ensures Wired(Dispatch(id, p, c).port)
  {
  }

  /** What a stimulus does to the port it names. */
  function React(p: PortState, st: Stimulus): (r: PortState)
    requires Wired(p) && Admissible(st)
    ensures Wired(r)
  {
    match st
    case Invoke(id, c) => DispatchKeepsWired(id, p, c); Dispatch(id, p, c).port
    case ByteArrives(_, data) => Receive(p, data)
    case InterruptFires(_) => Interrupt(p).port
  }

  /** One stimulus: it acts on the port it names, and on no other. */
  function Exec(s: System, st: Stimulus): (r: System)
    requires SystemWired(s) && Admissible(st)
    ensures SystemWired(r)
    ensures r.Get(st.Port()) == React(s.Get(st.Port()), st)
    ensures r.Get(st.Port().Other()) == s.Get(st.Port().Other())
  {
    assert Wired(s.Get(st.Port())) && Wired(s.Get(st.Port().Other()));
    s.Set(st.Port(), React(s.Get(st.Port()), st))
  }

  /** A sequence of stimuli, in order. From a wired system every stimulus is
      defined — in particular every interrupt finds a callback to call — and
      the system stays wired. */
  function ExecAll(s: System, sts: seq<Stimulus>): (r: System)
    requires SystemWired(s)
    requires forall i :: 0 <= i < |sts| ==> Admissible(sts[i])
    ensures SystemWired(r)
    decreases |sts|
  {
    if sts == [] then s else ExecAll(Exec(s, sts[0]), sts[1..])
  }

  /** The state after reset: static driver memory zeroed, every clock and
      enable bit off, pins analog, the transmitter idle. */
  const PowerOnPort: PortState := PortState(
    busEnabled := false, enabled := false, dirEnabled := PerDir(false, false),
    pins := PerDir(AnalogNoPullLow, AnalogNoPullLow), prescaler := Div1, lastBaud := None,
    rxIrqEnabled := false, isrAttached := false, rxne := false, ore := false,
    tc := true, txe := true, rdr := 0, prevEnabled := false, callback := NULL, context := NULL)

  const PowerOn: System := PerPort(PowerOnPort, PowerOnPort)

  /** Whatever happens after reset, on either port the handler is attached
      only with a non-null callback stored and the receive interrupt
      enabled, so no interrupt ever calls through a null pointer. */
  lemma ReachableHandlerSafe(sts: seq<Stimulus>, id: SerialId)
    requires forall i :: 0 <= i < |sts| ==> Admissible(sts[i])
    ensures ExecAll(PowerOn, sts).Get(id).isrAttached ==>
      ExecAll(PowerOn, sts).Get(id).callback != NULL && ExecAll(PowerOn, sts).Get(id).rxIrqEnabled
  {
    var r := ExecAll(PowerOn, sts);
    assert Wired(r.Get(id));
  }

  /** A byte received on a port with a registered callback reaches that
      callback, with the registered context, at the next interrupt. */
  lemma RegisteredByteDelivered(id: SerialId, p: PortState, cb: Ptr, ctx: Ptr, data: byte)
    requires cb != NULL
    requires p.busEnabled && p.enabled && p.dirEnabled.rx && !p.rxne
    ensures var q := Receive(SetRxCallback(id, p, cb, ctx).port, data);
      && Wired(q)
      && Interrupt(q).trace == [ReadData(data), InvokeCallback(cb, data, ctx)]
      && Interrupt(q).port == q.(rxne := false)
  {
  }

  /** Once the callback is unregistered, a received byte stays pending and
      no interrupt touches it. */
  lemma UnregisteredByteIgnored(id: SerialId, p: PortState, ctx: Ptr, data: byte)
    ensures var q := Receive(SetRxCallback(id, p, NULL, ctx).port, data);
      Wired(q) && Interrupt(q) == Start(q)
  {
  }

  /** Two bytes arriving before the handler runs, under the single-slot
      `Receive`: the first is delivered, the second is lost to an overrun,
      which the next interrupt clears without a callback; after that the
      port is quiet. The part itself has its receive FIFO enabled and would
      queue the second byte instead. */
  lemma OverrunLosesSecondByte(p: PortState, a: byte, b: byte)
    requires Wired(p) && p.isrAttached
    requires p.busEnabled && p.enabled && p.dirEnabled.rx && !p.rxne && !p.ore
    ensures var q := Receive(Receive(p, a), b);
      && Interrupt(q).trace == [ReadData(a), InvokeCallback(p.callback, a, p.context)]
      && Interrupt(Interrupt(q).port).trace == [ClearOverrun]
      && Interrupt(Interrupt(Interrupt(q).port).port) == Start(Interrupt(Interrupt(q).port).port)
  {
  }
}

=== FILE: hardware.dfy ===
/** The abstract per-port hardware and driver state, the events the driver
    issues, and what each event does to the state.

    The vendor register primitives are opaque: an event records the call
    and its arguments, and `Apply` changes only the abstract field the call
    is documented to control. Each busy-wait loop is one event that ends
    with its flag observed set. */
module Hardware {
  import opened SerialTypes
  import opened SerialConfig

  /** The two pin configurations the driver writes: alternate function,
      push-pull, pull-up, very high speed, routed by `altFn`; or analog,
      no pull, low speed (electrically idle). */
  datatype PinConfig =
    | AltFunctionPushPullUpVeryHigh(altFn: AltFn)
    | AnalogNoPullLow

  /** Kernel clock prescaler values of the peripheral. */
  datatype Prescaler =
    Div1 | Div2 | Div4 | Div6 | Div8 | Div10 | Div12 | Div16 | Div32 | Div64 | Div128 | Div256

  datatype Oversampling = Oversampling8 | Oversampling16

  /** Kernel clock sources a port can be driven from. */
  datatype ClockSource = ClockPclk1 | ClockPclk2 | ClockSysclk | ClockHsi | ClockLse

  datatype DataWidth = DataWidth7 | DataWidth8 | DataWidth9
  datatype StopBits = StopBitsHalf | StopBits1 | StopBitsOneAndHalf | StopBits2
  datatype Parity = ParityNone | ParityEven | ParityOdd
  datatype TransferDirection = TransferNone | TransferRx | TransferTx | TransferTxRx
  datatype FlowControl = FlowNone | FlowRts | FlowCts | FlowRtsCts

  /** The parameter block handed to the vendor initialisation routine;
      `oversampling` is `None` for the LPUART, whose routine has no such
      field. */
  datatype InitParams = InitParams(
    prescaler: Prescaler,
    baud: u32,
    dataWidth: DataWidth,
    stopBits: StopBits,
    parity: Parity,
    direction: TransferDirection,
    flowControl: FlowControl,
    oversampling: Option<Oversampling>)

  /** The arguments of one vendor baud-rate call. */
  datatype BaudSetting = BaudSetting(
    clk: u32,
    prescaler: Prescaler,
    oversampling: Option<Oversampling>,
    baud: u32)

  /** Interrupt-controller vectors and the two handlers the driver installs. */
  datatype InterruptId = InterruptUart1 | InterruptLpuart1
  datatype IsrHandler = UsartIrqHandler | LpuartIrqHandler

  /** One register write, busy-wait, vendor call or driver-memory write, in
      program order. Status reads are not events: the driver's tests of the
      enable bit, the bus clock and the receive flags are branch conditions
      on the port state. A call acts on one port only, so events do not name
      the port. */
  datatype Event =
    | BusEnable
    | BusDisable
    | SetClockSource(source: ClockSource)
    | PinInit(pin: Pin, config: PinConfig)
    | InitPeripheral(params: InitParams)
    | EnableFifo
    | ConfigAsyncMode
    | Enable
    | Disable
    | WaitAck                        // until transmit- and receive-enable acknowledge
    | WaitTC                         // until transfer complete
    | WaitTXE                        // until transmit data register empty
    | SetPrescaler(prescaler: Prescaler)
    | ProgramBaudRate(setting: BaudSetting)
    | DisableErrorIrq
    | Write(data: byte)
    | SetIsr(irq: InterruptId, handler: Option<IsrHandler>)
    | EnableRxIrq
    | DisableRxIrq
    | StoreCallback(callback: Ptr)
    | StoreContext(context: Ptr)
    | StorePrevEnabled(value: bool)
    | ControlDirection(control: ControlFunc)
    | ReadData(data: byte)
    | InvokeCallback(callback: Ptr, data: byte, context: Ptr)
    | ClearOverrun

  /** Everything the model tracks about one port. The last three fields are
      the driver's own memory (the suspend flag and the registered
      callback/context); the rest mirrors the peripheral, its bus clock,
      its pins and its interrupt vector. `rdr` is the received-data
      register. */
  datatype PortState = PortState(
    busEnabled: bool,
    enabled: bool,
    dirEnabled: PerDir<bool>,
    pins: PerDir<PinConfig>,
    prescaler: Prescaler,
    lastBaud: Option<BaudSetting>,
    rxIrqEnabled: bool,
    isrAttached: bool,
    rxne: bool,
    ore: bool,
    tc: bool,
    txe: bool,
    rdr: byte,
    prevEnabled: bool,
    callback: Ptr,
    context: Ptr)

  /** The directions a vendor initialisation switches on. */
  function TransferDirs(t: TransferDirection): PerDir<bool> {
    match t
    case TransferNone => PerDir(false, false)
    case TransferRx => PerDir(false, true)
    case TransferTx => PerDir(true, false)
    case TransferTxRx => PerDir(true, true)
  }

  /** The effect of one event on the port it is issued to. */
  function Apply(p: PortState, e: Event): PortState {
    match e
    case BusEnable => p.(busEnabled := true)
    case BusDisable => p.(busEnabled := false)
    case PinInit(pin, c) => p.(pins := p.pins.Set(PinDirection(pin), c))
    case InitPeripheral(ps) => p.(prescaler := ps.prescaler, dirEnabled := TransferDirs(ps.direction))
    case Enable => p.(enabled := true)
    case Disable => p.(enabled := false)
    case WaitTC => p.(tc := true)
    case WaitTXE => p.(txe := true)
    case SetPrescaler(pr) => p.(prescaler := pr)
    case ProgramBaudRate(bs) => p.(lastBaud := Some(bs))
    case Write(_) => p.(txe := false, tc := false)
    case SetIsr(_, h) => p.(isrAttached := h.Some?)
    case EnableRxIrq => p.(rxIrqEnabled := true)
    case DisableRxIrq => p.(rxIrqEnabled := false)
    case StoreCallback(c) => p.(callback := c)
    case StoreContext(c) => p.(context := c)
    case StorePrevEnabled(v) => p.(prevEnabled := v)
    case ControlDirection(cf) => p.(dirEnabled := p.dirEnabled.Set(cf.dir, cf.EnableDir?))
    case ReadData(_) => p.(rxne := false)
    case ClearOverrun => p.(ore := false)
    case SetClockSource(_) => p
    case EnableFifo => p
    case ConfigAsyncMode => p
    case WaitAck => p
    case DisableErrorIrq => p
    case InvokeCallback(_, _, _) => p
  }

  /** The result of a driver call: the port afterwards and the events the
      call issued. */
  datatype Step = Step(port: PortState, trace: seq<Event>)

  /** A call that touches nothing. */
  function Start(p: PortState): Step {
    Step(p, [])
  }

  /** Replays a trace on a port, event by event. */
  function Run(p: PortState, es: seq<Event>): PortState
    decreases |es|
  {
    if es == [] then p else Apply(Run(p, es[..|es| - 1]), es[|es| - 1])
  }

  /** Replaying a concatenation replays the parts in turn. */
  lemma {:induction false} RunAppend(p: PortState, a: seq<Event>, b: seq<Event>)
    ensures Run(p, a + b) == Run(Run(p, a), b)
    decreases |b|
  {
    if b == [] {
      assert a + b == a;
    } else {
      var b' := b[..|b| - 1];
      assert (a + b)[..|a + b| - 1] == a + b';
      RunAppend(p, a, b');
    }
  }

  /** Replaying three consecutive pieces replays each in turn. */
  lemma RunConcat3(p: PortState, a: seq<Event>, b: seq<Event>, c: seq<Event>)
    ensures Run(p, a + b + c) == Run(Run(Run(p, a), b), c)
  {
    RunAppend(p, a + b, c);
    RunAppend(p, a, b);
  }

  /** Replaying a short literal trace is applying its events in turn. */
  lemma Run1(p: PortState, a: Event)
    ensures Run(p, [a]) == Apply(p, a)
  {
    assert [a][..0] == [];
  }

  lemma Run2(p: PortState, a: Event, b: Event)
    ensures Run(p, [a, b]) == Apply(Apply(p, a), b)
  {
    assert [a, b][..1] == [a];
    Run1(p, a);
  }

  lemma Run3(p: PortState, a: Event, b: Event, c: Event)
    ensures Run(p, [a, b, c]) == Apply(Apply(Apply(p, a), b), c)
  {
    assert [a, b, c][..2] == [a, b];
    Run2(p, a, b);
  }

  lemma Run4(p: PortState, a: Event, b: Event, c: Event, d: Event)
    ensures Run(p, [a, b, c, d]) == Apply(Apply(Apply(Apply(p, a), b), c), d)
  {
    assert [a, b, c, d][..3] == [a, b, c];
    Run3(p, a, b, c);
  }

  lemma Run5(p: PortState, a: Event, b: Event, c: Event, d: Event, e: Event)
    ensures Run(p, [a, b, c, d, e]) == Apply(Apply(Apply(Apply(Apply(p, a), b), c), d), e)
  {
    assert [a, b, c, d, e][..4] == [a, b, c, d];
    Run4(p, a, b, c, d);
  }

  /** A call whose trace, replayed on the port it started from, yields the
      port it left. */
  ghost predicate Replays(p: PortState, r: Step) {
    Run(p, r.trace) == r.port
  }

  /** The data bytes a trace writes to the transmit register, in order. */
  function Writes(t: seq<Event>): seq<byte> {
    if t == [] then []
    else (if t[0].Write? then [t[0].data] else []) + Writes(t[1..])
  }

  lemma {:induction false} WritesAppend(a: seq<Event>, b: seq<Event>)
    ensures Writes(a + b) == Writes(a) + Writes(b)
    decreases |a|
  {
    if a == [] {
      assert a + b == b;
    } else {
      assert (a + b)[1..] == a[1..] + b;
      WritesAppend(a[1..], b);
    }
  }
}

=== FILE: properties.dfy ===
/** Properties that relate several calls of the driver: suspend and resume
    as a pair, the baud change against a fresh bring-up, the transmit path
    against the bytes it is given, the direction switches against each
    other, and teardown against bring-up. */
module SerialProperties {
  import opened SerialTypes
  import opened SerialConfig
  import opened Hardware
  import opened BaudRate
  import opened Serial

  // ----- Suspend and resume ---------------------------------------------

  /** A second suspend finds the port disabled and does nothing. */
  lemma SuspendIdempotent(p: PortState)
    ensures Suspend(Suspend(p).port) == Start(Suspend(p).port)
  {
  }

  /** A resume without a pending suspend does nothing; in particular a
      second resume does nothing. */
  lemma ResumeIdempotent(p: PortState)
    ensures !p.prevEnabled ==> Resume(p) == Start(p)
    ensures Resume(Resume(p).port) == Start(Resume(p).port)
  {
  }

  /** Suspend then resume on a running port is a round trip: the port is
      back as it was, with the flag cleared, after exactly the disable, the
      flag write, the enable and the flag clear. */
  lemma SuspendResumeRoundTrip(p: PortState)
    requires p.enabled
    ensures Resume(Suspend(p).port).port == p.(prevEnabled := false)
    ensures Suspend(p).trace + Resume(Suspend(p).port).trace
         == [Disable, StorePrevEnabled(true), Enable, StorePrevEnabled(false)]
  {
  }

  /** Suspending a port that is already off leaves a pending suspend
      pending, so the resume that follows still re-enables it. */
  lemma SuspendKeepsPendingFlag(p: PortState)
    requires !p.enabled && p.prevEnabled
    ensures Suspend(p).port == p
    ensures Resume(Suspend(p).port).port.enabled
  {
  }

  /** Teardown does not clear a pending suspend: for a port suspended while
      running, then torn down, the next resume issues the enable write,
      which the model lets take effect although the bus clock stays off. */
  lemma ResumeAfterDeinitReenables(id: SerialId, p: PortState)
    requires p.enabled
    ensures var q := Deinit(id, Suspend(p).port).port;
      && q.prevEnabled && !q.enabled && !q.busEnabled
      && Resume(q).trace == [Enable, StorePrevEnabled(false)]
      && Resume(q).port.enabled && !Resume(q).port.busEnabled
  {
  }

  // ----- Baud rate ------------------------------------------------------

  /** Asking twice for the same baud rate leaves the port as asking once. */
  lemma SetBaudRateIdempotent(id: SerialId, p: PortState, clk: u32, baud: u32)
    requires id == Lpuart && p.enabled ==> baud > 0
    ensures SetBaudRate(id, SetBaudRate(id, p, clk, baud).port, clk, baud).port
         == SetBaudRate(id, p, clk, baud).port
  {
  }

  /** Changing the baud rate of a freshly initialised port leaves it exactly
      as initialising it at the new rate would. */
  lemma InitThenSetBaudRate(id: SerialId, p: PortState, clk: u32, b1: u32, b2: u32)
    requires id == Lpuart ==> b1 > 0 && b2 > 0
    ensures SetBaudRate(id, Init(id, p, clk, b1).port, clk, b2).port == Init(id, p, clk, b2).port
  {
    var q := Init(id, p, clk, b1).port;
    assert q.enabled;
    if id == Usart {
      assert q.prescaler == Div1 == BaudPrescaler(id, clk, b2);
    }
  }

  /** The LPUART prescaler at a 64 MHz kernel clock: 9600 baud needs the
      division by 32, 115200 baud does not; and the switch happens exactly
      where the clock reaches 4096 times the baud rate. */
  lemma LpuartPrescalerExamples()
    ensures BaudPrescaler(Lpuart, 64000000, 9600) == Div32
    ensures BaudPrescaler(Lpuart, 64000000, 115200) == Div1
    ensures BaudPrescaler(Lpuart, 39321600, 9600) == Div32
    ensures BaudPrescaler(Lpuart, 39321599, 9600) == Div1
  {
  }

  // ----- Bring-up and teardown ------------------------------------------

  /** Tearing down a running port: unregistering, bus clock off, peripheral
      off, then the two pins to analog, eight events in all. */
  lemma DeinitAfterInit(id: SerialId, p: PortState, clk: u32, baud: u32)
    requires id == Lpuart ==> baud > 0
    ensures var q := Init(id, p, clk, baud).port;
      Deinit(id, q).trace
        == SetRxCallback(id, q, NULL, NULL).trace + [BusDisable, Disable] + PinWrites(id, AnalogNoPullLow)
  {
    var q := Init(id, p, clk, baud).port;
    var t := Deinit(id, q).trace;
    assert |t| == 8;
    assert t == t[..4] + t[4..6] + t[6..];
  }

  /** A second teardown finds nothing left to switch off: it repeats only
      the unregistration and the pin writes, and changes nothing. */
  lemma DeinitIdempotent(id: SerialId, p: PortState)
    ensures var q := Deinit(id, p).port;
      && Deinit(id, q).port == q
      && Deinit(id, q).trace == SetRxCallback(id, q, NULL, NULL).trace + PinWrites(id, AnalogNoPullLow)
  {
    var q := Deinit(id, p).port;
    var t := Deinit(id, q).trace;
    assert |t| == 6;
    assert t == t[..4] + t[4..];
  }

  // ----- Transmit path --------------------------------------------------

  /** The transmit loop writes exactly the buffer. */
  lemma {:induction false} TxEventsWrites(buf: seq<byte>)
    ensures Writes(TxEvents(buf)) == buf
    decreases |buf|
  {
    if buf != [] {
      TxEventsWrites(buf[1..]);
      WritesAppend([WaitTXE, Write(buf[0])], TxEvents(buf[1..]));
      assert Writes([WaitTXE, Write(buf[0])]) == [buf[0]] by {
        assert [WaitTXE, Write(buf[0])][1..] == [Write(buf[0])];
        assert [Write(buf[0])][1..] == [];
      }
      assert buf == [buf[0]] + buf[1..];
    }
  }

  /** What reaches the line: the whole buffer, in order, on an enabled
      port; nothing on a disabled one. */
  lemma TransmitWrites(p: PortState, buf: seq<byte>)
    ensures Writes(Transmit(p, buf).trace) == if p.enabled then buf else []
  {
    if p.enabled && buf != [] {
      TxEventsWrites(buf);
      assert Transmit(p, buf).trace == TxEvents(buf);
    }
  }

  lemma {:induction false} TxEventsAppend(a: seq<byte>, b: seq<byte>)
    ensures TxEvents(a + b) == TxEvents(a) + TxEvents(b)
    decreases |a|
  {
    if a == [] {
      assert a + b == b;
    } else {
      assert (a + b)[0] == a[0] && (a + b)[1..] == a[1..] + b;
      TxEventsAppend(a[1..], b);
    }
  }

  /** Sending a buffer in two pieces issues the same events and leaves the
      port as sending it in one piece. */
  lemma TransmitSplit(p: PortState, a: seq<byte>, b: seq<byte>)
    ensures Transmit(p, a + b).trace == Transmit(p, a).trace + Transmit(Transmit(p, a).port, b).trace
    ensures Transmit(p, a + b).port == Transmit(Transmit(p, a).port, b).port
  {
    TxEventsAppend(a, b);
    if a == [] {
      assert a + b == b;
    } else if b == [] {
      assert a + b == a;
    }
  }

  /** After a transmit on an enabled port, waiting for completion is one
      wait and leaves the transfer-complete flag set, the port still
      enabled; a second wait finds nothing more to change. */
  lemma TransmitThenWaitComplete(p: PortState, buf: seq<byte>)
    requires p.enabled
    ensures var q := TxWaitComplete(Transmit(p, buf).port);
      && q.trace == [WaitTC] && q.port.tc && q.port.enabled
      && TxWaitComplete(q.port).port == q.port
  {
  }

  // ----- Receive dispatch -----------------------------------------------

  /** One handler run takes one branch only: at most one callback call, and
      an overrun is cleared only when no byte was waiting. */
  lemma IrqHandlerOneBranch(p: PortState)
    requires p.rxne ==> p.callback != NULL
    ensures var t := IrqHandler(p).trace;
      && (forall i, j :: 0 <= i < |t| && 0 <= j < |t| && t[i].InvokeCallback? && t[j].InvokeCallback? ==> i == j)
      && (ClearOverrun in t ==> !p.rxne && p.ore)
      && ((exists i :: 0 <= i < |t| && t[i].InvokeCallback?) <==> p.rxne)
  {
    var t := IrqHandler(p).trace;
    if p.rxne {
      assert t[1].InvokeCallback?;
    }
  }

  /** Registering and then unregistering leaves the port unwired, whatever
      was registered, and the context passed last is the one kept. */
  lemma RegisterThenUnregister(id: SerialId, p: PortState, cb: Ptr, c1: Ptr, c2: Ptr)
    ensures var q := SetRxCallback(id, SetRxCallback(id, p, cb, c1).port, NULL, c2).port;
      q == p.(isrAttached := false, rxIrqEnabled := false, callback := NULL, context := c2)
  {
  }

  // ----- Direction control ----------------------------------------------

  /** Either direction switch, by flag. */
  function SwitchDirection(id: SerialId, p: PortState, d: Direction, on: bool): Step {
    if on then EnableDirection(id, p, d) else DisableDirection(id, p, d)
  }

  /** The pin configuration a switch gives its direction's pin. */
  function SwitchedPin(id: SerialId, on: bool): PinConfig {
    if on then AltPin(id) else AnalogNoPullLow
  }

  lemma SwitchDirectionEffect(id: SerialId, p: PortState, d: Direction, on: bool)
    ensures SwitchDirection(id, p, d, on).port
         == p.(dirEnabled := p.dirEnabled.Set(d, on), pins := p.pins.Set(d, SwitchedPin(id, on)))
  {
  }

  /** Entries of different directions can be replaced in either order. */
  lemma PerDirSetCommute<T>(t: PerDir<T>, d: Direction, u: T, v: T)
    ensures t.Set(d, u).Set(d.Other(), v) == t.Set(d.Other(), v).Set(d, u)
  {
  }

  /** A later replacement of the same entry overrides an earlier one. */
  lemma PerDirSetOverride<T>(t: PerDir<T>, d: Direction, u: T, v: T)
    ensures t.Set(d, u).Set(d, v) == t.Set(d, v)
  {
  }

  /** Switches on the two directions commute: each direction has its own
      enable bit and its own pin. */
  lemma DirectionsCommute(id: SerialId, p: PortState, d: Direction, a: bool, b: bool)
    ensures SwitchDirection(id, SwitchDirection(id, p, d, a).port, d.Other(), b).port
         == SwitchDirection(id, SwitchDirection(id, p, d.Other(), b).port, d, a).port
  {
    var pa, pb := SwitchedPin(id, a), SwitchedPin(id, b);
    var x1 := SwitchDirection(id, p, d, a).port;
    var y1 := SwitchDirection(id, p, d.Other(), b).port;
    SwitchDirectionEffect(id, p, d, a);
    SwitchDirectionEffect(id, p, d.Other(), b);
    SwitchDirectionEffect(id, x1, d.Other(), b);
    SwitchDirectionEffect(id, y1, d, a);
    assert d.Other().Other() == d;
    PerDirSetCommute(p.dirEnabled, d, a, b);
    PerDirSetCommute(p.pins, d, pa, pb);
  }

  /** The last switch of a direction decides its state. */
  lemma LastDirectionSwitchWins(id: SerialId, p: PortState, d: Direction, a: bool, b: bool)
    ensures SwitchDirection(id, SwitchDirection(id, p, d, a).port, d, b).port
         == SwitchDirection(id, p, d, b).port
  {
    var x1 := SwitchDirection(id, p, d, a).port;
    SwitchDirectionEffect(id, p, d, a);
    SwitchDirectionEffect(id, x1, d, b);
    SwitchDirectionEffect(id, p, d, b);
    PerDirSetOverride(p.dirEnabled, d, a, b);
    PerDirSetOverride(p.pins, d, SwitchedPin(id, a), SwitchedPin(id, b));
  }

  /** After a bring-up, switching a direction off and on again restores the
      port exactly. */
  lemma DisableEnableAfterInit(id: SerialId, p: PortState, clk: u32, baud: u32, d: Direction)
    requires id == Lpuart ==> baud > 0
    ensures var q := Init(id, p, clk, baud).port;
      EnableDirection(id, DisableDirection(id, q, d).port, d).port == q
  {
    var q := Init(id, p, clk, baud).port;
    var x := EnableDirection(id, DisableDirection(id, q, d).port, d).port;
    assert q.dirEnabled.Get(d) && q.pins.Get(d) == AltPin(id);
    PerDirExt(x.dirEnabled, q.dirEnabled, d);
    PerDirExt(x.pins, q.pins, d);
  }

  /** Two per-direction tables agreeing on both directions are equal. */
  lemma PerDirExt<T>(a: PerDir<T>, b: PerDir<T>, d: Direction)
    requires a.Get(d) == b.Get(d) && a.Get(d.Other()) == b.Get(d.Other())
    ensures a == b
  {
  }
}

=== FILE: replay.dfy ===
/** Consistency of every call with the event semantics: replaying the
    events a call issues, one by one with `Apply`, from the port it started
    from, yields exactly the port the call reports. The direct definitions
    of the calls and the event-level account of what they touch thus
    describe the same transition.

    The `...Effect` lemmas compute what a short run of events does; each
    intermediate state is stated so that every step is a single `Apply`. */
module SerialReplay {
  import opened SerialTypes
  import opened SerialConfig
  import opened Hardware
  import opened BaudRate
  import opened Serial

  // ----- Suspend, resume, transmit completion, interrupt ----------------

  lemma SuspendEffect(p: PortState)
    ensures Apply(Apply(p, Disable), StorePrevEnabled(true)) == p.(enabled := false, prevEnabled := true)
  {
    var q := p.(enabled := false);
    assert Apply(p, Disable) == q;
    assert Apply(q, StorePrevEnabled(true)) == q.(prevEnabled := true);
  }

  lemma SuspendReplays(p: PortState)
    ensures Replays(p, Suspend(p))
  {
    if p.enabled {
      Run2(p, Disable, StorePrevEnabled(true));
      SuspendEffect(p);
    }
  }

  lemma ResumeEffect(p: PortState)
    ensures Apply(Apply(p, Enable), StorePrevEnabled(false)) == p.(enabled := true, prevEnabled := false)
  {
    var q := p.(enabled := true);
    assert Apply(p, Enable) == q;
    assert Apply(q, StorePrevEnabled(false)) == q.(prevEnabled := false);
  }

  lemma ResumeReplays(p: PortState)
    ensures Replays(p, Resume(p))
  {
    if p.prevEnabled {
      Run2(p, Enable, StorePrevEnabled(false));
      ResumeEffect(p);
    }
  }

  lemma TxWaitCompleteReplays(p: PortState)
    ensures Replays(p, TxWaitComplete(p))
  {
    if p.enabled {
      Run1(p, WaitTC);
      assert Apply(p, WaitTC) == p.(tc := true);
    }
  }

  lemma ReceiveEffect(p: PortState, data: byte, cb: Ptr, ctx: Ptr)
    ensures Apply(Apply(p, ReadData(data)), InvokeCallback(cb, data, ctx)) == p.(rxne := false)
  {
    var q := p.(rxne := false);
    assert Apply(p, ReadData(data)) == q;
    assert Apply(q, InvokeCallback(cb, data, ctx)) == q;
  }

  lemma IrqHandlerReplays(p: PortState)
    requires p.rxne ==> p.callback != NULL
    ensures Replays(p, IrqHandler(p))
  {
    if p.rxne {
      Run2(p, ReadData(p.rdr), InvokeCallback(p.callback, p.rdr, p.context));
      ReceiveEffect(p, p.rdr, p.callback, p.context);
    } else if p.ore {
      Run1(p, ClearOverrun);
      assert Apply(p, ClearOverrun) == p.(ore := false);
    }
  }

  // ----- Callback registration ------------------------------------------

  lemma DetachEffect(p: PortState, irq: InterruptId)
    ensures Apply(Apply(p, SetIsr(irq, None)), DisableRxIrq) == p.(isrAttached := false, rxIrqEnabled := false)
  {
    var q := p.(isrAttached := false);
    assert Apply(p, SetIsr(irq, None)) == q;
    assert Apply(q, DisableRxIrq) == q.(rxIrqEnabled := false);
  }

  lemma AttachEffect(p: PortState, irq: InterruptId, h: IsrHandler)
    ensures Apply(Apply(p, SetIsr(irq, Some(h))), EnableRxIrq) == p.(isrAttached := true, rxIrqEnabled := true)
  {
    var q := p.(isrAttached := true);
    assert Apply(p, SetIsr(irq, Some(h))) == q;
    assert Apply(q, EnableRxIrq) == q.(rxIrqEnabled := true);
  }

  lemma ClearEffect(p: PortState, ctx: Ptr)
    ensures Apply(Apply(p, StoreCallback(NULL)), StoreContext(ctx)) == p.(callback := NULL, context := ctx)
  {
    var q := p.(callback := NULL);
    assert Apply(p, StoreCallback(NULL)) == q;
    assert Apply(q, StoreContext(ctx)) == q.(context := ctx);
  }

  lemma StoreEffect(p: PortState, cb: Ptr, ctx: Ptr)
    ensures Apply(Apply(p, StoreContext(ctx)), StoreCallback(cb)) == p.(callback := cb, context := ctx)
  {
    var q := p.(context := ctx);
    assert Apply(p, StoreContext(ctx)) == q;
    assert Apply(q, StoreCallback(cb)) == q.(callback := cb);
  }

  lemma SetRxCallbackReplays(id: SerialId, p: PortState, cb: Ptr, ctx: Ptr)
    ensures Replays(p, SetRxCallback(id, p, cb, ctx))
  {
    if cb == NULL {
      Run4(p, SetIsr(IrqOf(id), None), DisableRxIrq, StoreCallback(NULL), StoreContext(ctx));
      DetachEffect(p, IrqOf(id));
      ClearEffect(p.(isrAttached := false, rxIrqEnabled := false), ctx);
    } else {
      Run4(p, StoreContext(ctx), StoreCallback(cb), SetIsr(IrqOf(id), Some(HandlerOf(id))), EnableRxIrq);
      StoreEffect(p, cb, ctx);
      AttachEffect(p.(callback := cb, context := ctx), IrqOf(id), HandlerOf(id));
    }
  }

  /** The part of a port the interrupt path depends on: whether the
      handler is attached, and which callback it would call with which
      context. */
  datatype Wiring = Wiring(attached: bool, callback: Ptr, context: Ptr)

  function WiringOf(p: PortState): Wiring {
    Wiring(p.isrAttached, p.callback, p.context)
  }

  /** The effect of one event on the wiring alone. */
  function ApplyWiring(w: Wiring, e: Event): Wiring {
    match e
    case SetIsr(_, h) => w.(attached := h.Some?)
    case StoreCallback(c) => w.(callback := c)
    case StoreContext(c) => w.(context := c)
    case _ => w
  }

  function RunWiring(w: Wiring, es: seq<Event>): Wiring
    decreases |es|
  {
    if es == [] then w else ApplyWiring(RunWiring(w, es[..|es| - 1]), es[|es| - 1])
  }

  lemma RunWiringPrefix(w: Wiring, t: seq<Event>, k: nat)
    requires k < |t|
    ensures RunWiring(w, t[..k + 1]) == ApplyWiring(RunWiring(w, t[..k]), t[k])
  {
    assert t[..k + 1][..k] == t[..k];
  }

  /** The wiring after each prefix of a four-event sequence. */
  lemma RunWiring4(w: Wiring, t: seq<Event>)
    requires |t| == 4
    ensures RunWiring(w, t[..0]) == w
    ensures RunWiring(w, t[..1]) == ApplyWiring(w, t[0])
    ensures RunWiring(w, t[..2]) == ApplyWiring(ApplyWiring(w, t[0]), t[1])
    ensures RunWiring(w, t[..3]) == ApplyWiring(ApplyWiring(ApplyWiring(w, t[0]), t[1]), t[2])
    ensures RunWiring(w, t[..4]) == ApplyWiring(ApplyWiring(ApplyWiring(ApplyWiring(w, t[0]), t[1]), t[2]), t[3])
  {
    assert t[..0] == [];
    RunWiringPrefix(w, t, 0);
    RunWiringPrefix(w, t, 1);
    RunWiringPrefix(w, t, 2);
    RunWiringPrefix(w, t, 3);
  }

  /** The wiring is an abstraction of the port: it can be tracked event by
      event without the rest of the state. */
  lemma WiringOfApply(p: PortState, e: Event)
    ensures WiringOf(Apply(p, e)) == ApplyWiring(WiringOf(p), e)
  {
  }

  lemma {:induction false} WiringOfRun(p: PortState, es: seq<Event>)
    ensures WiringOf(Run(p, es)) == RunWiring(WiringOf(p), es)
    decreases |es|
  {
    if es != [] {
      WiringOfRun(p, es[..|es| - 1]);
      WiringOfApply(Run(p, es[..|es| - 1]), es[|es| - 1]);
    }
  }

  /** The handler can only ever run with a callback to call: it is
      attached only while a non-null callback is stored. */
  predicate HandlerSafe(w: Wiring) {
    w.attached ==> w.callback != NULL
  }

  /** An interrupt taken now, if the handler is attached, calls `cb` with
      `ctx`. */
  predicate Delivers(w: Wiring, cb: Ptr, ctx: Ptr) {
    w.attached ==> w.callback == cb && w.context == ctx
  }

  /** The wiring after each prefix of the unregistration sequence: the
      handler is detached by the first event, before the callback and the
      context are overwritten. */
  lemma DetachWiringPrefixes(w: Wiring, t: seq<Event>, irq: InterruptId, ctx: Ptr)
    requires t == [SetIsr(irq, None), DisableRxIrq, StoreCallback(NULL), StoreContext(ctx)]
    ensures RunWiring(w, t[..0]) == w
    ensures RunWiring(w, t[..1]) == w.(attached := false)
    ensures RunWiring(w, t[..2]) == w.(attached := false)
    ensures RunWiring(w, t[..3]) == Wiring(false, NULL, w.context)
    ensures RunWiring(w, t[..4]) == Wiring(false, NULL, ctx)
  {
    RunWiring4(w, t);
    assert ApplyWiring(w, t[0]) == w.(attached := false);
  }


  /** The wiring after each prefix of the registration sequence: the
      context, then the callback, is stored before the handler is
      attached. */
  lemma AttachWiringPrefixes(w: Wiring, t: seq<Event>, irq: InterruptId, h: IsrHandler, cb: Ptr, ctx: Ptr)
    requires t == [StoreContext(ctx), StoreCallback(cb), SetIsr(irq, Some(h)), EnableRxIrq]
    ensures RunWiring(w, t[..0]) == w
    ensures RunWiring(w, t[..1]) == w.(context := ctx)
    ensures RunWiring(w, t[..2]) == w.(callback := cb, context := ctx)
    ensures RunWiring(w, t[..3]) == Wiring(true, cb, ctx)
    ensures RunWiring(w, t[..4]) == Wiring(true, cb, ctx)
  {
    RunWiring4(w, t);
    assert ApplyWiring(w, t[0]) == w.(context := ctx);
  }


  /** The unregistration order, tracked on the wiring alone: the handler
      is detached before the callback is cleared. */
  lemma DetachWiringSafe(w: Wiring, t: seq<Event>, k: nat, irq: InterruptId, ctx: Ptr)
    requires HandlerSafe(w)
    requires t == [SetIsr(irq, None), DisableRxIrq, StoreCallback(NULL), StoreContext(ctx)]
    requires k <= |t|
    ensures HandlerSafe(RunWiring(w, t[..k]))
  {
    DetachWiringPrefixes(w, t, irq, ctx);
    var m := RunWiring(w, t[..k]);
    if k == 0 {
      assert m == w;
    } else if k == 1 {
      assert m == RunWiring(w, t[..1]);
    } else if k == 2 {
      assert m == RunWiring(w, t[..2]);
    } else if k == 3 {
      assert m == RunWiring(w, t[..3]);
    } else {
      assert m == RunWiring(w, t[..4]);
    }
  }

  /** The unregistration order again: after every prefix the handler is
      either detached or still exactly as it was, with the pair it had. */
  lemma DetachWiringPairs(w: Wiring, t: seq<Event>, k: nat, irq: InterruptId, ctx: Ptr)
    requires t == [SetIsr(irq, None), DisableRxIrq, StoreCallback(NULL), StoreContext(ctx)]
    requires k <= |t|
    ensures RunWiring(w, t[..k]).attached ==> RunWiring(w, t[..k]) == w
  {
    DetachWiringPrefixes(w, t, irq, ctx);
    var m := RunWiring(w, t[..k]);
    if k == 0 {
      assert m == w;
    } else if k == 1 {
      assert m == RunWiring(w, t[..1]);
    } else if k == 2 {
      assert m == RunWiring(w, t[..2]);
    } else if k == 3 {
      assert m == RunWiring(w, t[..3]);
    } else {
      assert m == RunWiring(w, t[..4]);
    }
  }

  /** The registration order, tracked on the wiring alone: the callback is
      stored before the handler is attached. */
  lemma AttachWiringSafe(w: Wiring, t: seq<Event>, k: nat, irq: InterruptId, h: IsrHandler, cb: Ptr, ctx: Ptr)
    requires HandlerSafe(w) && cb != NULL
    requires t == [StoreContext(ctx), StoreCallback(cb), SetIsr(irq, Some(h)), EnableRxIrq]
    requires k <= |t|
    ensures HandlerSafe(RunWiring(w, t[..k]))
  {
    AttachWiringPrefixes(w, t, irq, h, cb, ctx);
    var m := RunWiring(w, t[..k]);
    if k == 0 {
      assert m == w;
    } else if k == 1 {
      assert m == RunWiring(w, t[..1]);
    } else if k == 2 {
      assert m == RunWiring(w, t[..2]);
    } else if k == 3 {
      assert m == RunWiring(w, t[..3]);
    } else {
      assert m == RunWiring(w, t[..4]);
    }
  }

  /** The registration order again: from a detached handler, every prefix
      is either detached or attached with the new callback and its own
      context. */
  lemma AttachWiringPairs(w: Wiring, t: seq<Event>, k: nat, irq: InterruptId, h: IsrHandler, cb: Ptr, ctx: Ptr)
    requires !w.attached
    requires t == [StoreContext(ctx), StoreCallback(cb), SetIsr(irq, Some(h)), EnableRxIrq]
    requires k <= |t|
    ensures Delivers(RunWiring(w, t[..k]), cb, ctx)
  {
    AttachWiringPrefixes(w, t, irq, h, cb, ctx);
    var m := RunWiring(w, t[..k]);
    if k == 0 {
      assert m == w;
    } else if k == 1 {
      assert m == RunWiring(w, t[..1]);
    } else if k == 2 {
      assert m == RunWiring(w, t[..2]);
    } else if k == 3 {
      assert m == RunWiring(w, t[..3]);
    } else {
      assert m == RunWiring(w, t[..4]);
    }
  }

  /** The order of the registration writes keeps `HandlerSafe` after every
      prefix of the call, not only at its end: registering stores the
      callback before attaching the handler, unregistering detaches the
      handler before clearing the callback. */
  lemma SetRxCallbackKeepsHandlerSafe(id: SerialId, p: PortState, cb: Ptr, ctx: Ptr, k: nat)
    requires HandlerSafe(WiringOf(p))
    requires k <= |SetRxCallback(id, p, cb, ctx).trace|
    ensures HandlerSafe(WiringOf(Run(p, SetRxCallback(id, p, cb, ctx).trace[..k])))
  {
    var t := SetRxCallback(id, p, cb, ctx).trace;
    WiringOfRun(p, t[..k]);
    if cb == NULL {
      DetachWiringSafe(WiringOf(p), t, k, IrqOf(id), ctx);
    } else {
      AttachWiringSafe(WiringOf(p), t, k, IrqOf(id), HandlerOf(id), cb, ctx);
    }
  }

  /** An interrupt taken between two events of an unregistration sees
      the pair registered before, or no handler at all. */
  lemma UnregisterPairsContext(id: SerialId, p: PortState, ctx: Ptr, k: nat)
    requires k <= |SetRxCallback(id, p, NULL, ctx).trace|
    ensures Delivers(WiringOf(Run(p, SetRxCallback(id, p, NULL, ctx).trace[..k])), p.callback, p.context)
  {
    var t := SetRxCallback(id, p, NULL, ctx).trace;
    WiringOfRun(p, t[..k]);
    DetachWiringPairs(WiringOf(p), t, k, IrqOf(id), ctx);
  }

  /** An interrupt taken between two events of a registration on a port
      whose handler is detached sees the new callback with its own
      context, never a mix of the old pair and the new one. */
  lemma RegisterPairsContext(id: SerialId, p: PortState, cb: Ptr, ctx: Ptr, k: nat)
    requires cb != NULL && !p.isrAttached
    requires k <= |SetRxCallback(id, p, cb, ctx).trace|
    ensures Delivers(WiringOf(Run(p, SetRxCallback(id, p, cb, ctx).trace[..k])), cb, ctx)
  {
    var t := SetRxCallback(id, p, cb, ctx).trace;
    WiringOfRun(p, t[..k]);
    AttachWiringPairs(WiringOf(p), t, k, IrqOf(id), HandlerOf(id), cb, ctx);
  }

  /** Registering over a live registration: the new context is written
      while the handler is still attached with the old callback, so an
      interrupt taken after that first event calls the old callback with
      the new context. */
  lemma ReregisterTearsContext(id: SerialId, p: PortState, cb1: Ptr, ctx1: Ptr, cb2: Ptr, ctx2: Ptr)
    requires cb1 != NULL && cb2 != NULL && p.rxne
    ensures var q := SetRxCallback(id, p, cb1, ctx1).port;
      var m := Run(q, SetRxCallback(id, q, cb2, ctx2).trace[..1]);
      && m.isrAttached && m.rxIrqEnabled && m.rxne
      && m.callback == cb1 && m.context == ctx2
      && IrqHandler(m).trace == [ReadData(p.rdr), InvokeCallback(cb1, p.rdr, ctx2)]
  {
    var q := SetRxCallback(id, p, cb1, ctx1).port;
    var t := SetRxCallback(id, q, cb2, ctx2).trace;
    assert t[..1] == [StoreContext(ctx2)];
    Run1(q, StoreContext(ctx2));
    assert Apply(q, StoreContext(ctx2)) == q.(context := ctx2);
    assert q.(context := ctx2).callback == cb1;
  }

  // ----- Direction control ----------------------------------------------

  lemma DirectionEffect(p: PortState, cf: ControlFunc, pin: Pin, c: PinConfig)
    ensures Apply(Apply(p, ControlDirection(cf)), PinInit(pin, c))
         == p.(dirEnabled := p.dirEnabled.Set(cf.dir, cf.EnableDir?), pins := p.pins.Set(PinDirection(pin), c))
  {
    var q := p.(dirEnabled := p.dirEnabled.Set(cf.dir, cf.EnableDir?));
    assert Apply(p, ControlDirection(cf)) == q;
    assert Apply(q, PinInit(pin, c)) == q.(pins := q.pins.Set(PinDirection(pin), c));
  }

  lemma EnableDirectionReplays(id: SerialId, p: PortState, d: Direction)
    ensures Replays(p, EnableDirection(id, p, d))
  {
    var cf := EnableDir(Table(id).periph, d);
    Run2(p, ControlDirection(cf), PinInit(GetGpioPin(id, d), AltPin(id)));
    DirectionEffect(p, cf, GetGpioPin(id, d), AltPin(id));
  }

  lemma DisableDirectionReplays(id: SerialId, p: PortState, d: Direction)
    ensures Replays(p, DisableDirection(id, p, d))
  {
    var cf := DisableDir(Table(id).periph, d);
    Run2(p, ControlDirection(cf), PinInit(GetGpioPin(id, d), AnalogNoPullLow));
    DirectionEffect(p, cf, GetGpioPin(id, d), AnalogNoPullLow);
  }

  // ----- Baud rate --------------------------------------------------------

  lemma QuiesceEffect(p: PortState)
    ensures Apply(Apply(p, WaitTC), Disable) == p.(tc := true, enabled := false)
  {
    var q := p.(tc := true);
    assert Apply(p, WaitTC) == q;
    assert Apply(q, Disable) == q.(enabled := false);
  }

  lemma ReprogramEffect(p: PortState, bs: BaudSetting)
    ensures Apply(Apply(p, ProgramBaudRate(bs)), Enable) == p.(lastBaud := Some(bs), enabled := true)
  {
    var q := p.(lastBaud := Some(bs));
    assert Apply(p, ProgramBaudRate(bs)) == q;
    assert Apply(q, Enable) == q.(enabled := true);
  }

  lemma SetBaudRateReplays(id: SerialId, p: PortState, clk: u32, baud: u32)
    requires id == Lpuart && p.enabled ==> baud > 0
    ensures Replays(p, SetBaudRate(id, p, clk, baud))
  {
    if p.enabled {
      var bs := BaudSettingOf(id, clk, baud);
      var q := p.(tc := true, enabled := false);
      QuiesceEffect(p);
      match id
      case Usart =>
        Run4(p, WaitTC, Disable, ProgramBaudRate(bs), Enable);
        ReprogramEffect(q, bs);
      case Lpuart =>
        Run5(p, WaitTC, Disable, SetPrescaler(bs.prescaler), ProgramBaudRate(bs), Enable);
        var q' := q.(prescaler := bs.prescaler);
        assert Apply(q, SetPrescaler(bs.prescaler)) == q';
        ReprogramEffect(q', bs);
    }
  }

  // ----- Initialisation ---------------------------------------------------

  lemma PowerUpReplays(id: SerialId, p: PortState)
    ensures Run(p, [BusEnable, SetClockSource(ClockSourceOf(id))]) == p.(busEnabled := true)
  {
    Run2(p, BusEnable, SetClockSource(ClockSourceOf(id)));
    var q := p.(busEnabled := true);
    assert Apply(p, BusEnable) == q;
    assert Apply(q, SetClockSource(ClockSourceOf(id))) == q;
  }

  /** Configuring a port's two pins alike sets both. */
  lemma PinWritesReplays(id: SerialId, p: PortState, c: PinConfig)
    ensures Run(p, PinWrites(id, c)) == p.(pins := BothPins(c))
  {
    var t := PinWrites(id, c);
    Run2(p, t[0], t[1]);
    var q := p.(pins := p.pins.Set(PinDirection(t[0].pin), c));
    assert Apply(p, t[0]) == q;
    assert Apply(q, t[1]) == q.(pins := q.pins.Set(PinDirection(t[1].pin), c));
    assert PinDirection(t[0].pin) != PinDirection(t[1].pin);
  }

  lemma FrameHeadReplays(p: PortState, ps: InitParams)
    ensures Run(p, [InitPeripheral(ps), EnableFifo])
         == p.(prescaler := ps.prescaler, dirEnabled := TransferDirs(ps.direction))
  {
    Run2(p, InitPeripheral(ps), EnableFifo);
    var q := p.(prescaler := ps.prescaler, dirEnabled := TransferDirs(ps.direction));
    assert Apply(p, InitPeripheral(ps)) == q;
    assert Apply(q, EnableFifo) == q;
  }

  lemma FrameModeReplays(id: SerialId, p: PortState)
    ensures Run(p, if id == Usart then [ConfigAsyncMode] else []) == p
  {
    if id == Usart {
      Run1(p, ConfigAsyncMode);
    }
  }

  lemma FrameTailReplays(p: PortState)
    ensures Run(p, [Enable, WaitAck]) == p.(enabled := true)
  {
    Run2(p, Enable, WaitAck);
    var q := p.(enabled := true);
    assert Apply(p, Enable) == q;
    assert Apply(q, WaitAck) == q;
  }

  lemma FrameReplays(id: SerialId, p: PortState, baud: u32)
    ensures Run(p, FrameEvents(id, baud)) == p.(prescaler := Div1, dirEnabled := PerDir(true, true), enabled := true)
  {
    var ps := InitParamsOf(id, baud);
    var head := [InitPeripheral(ps), EnableFifo];
    var mode: seq<Event> := if id == Usart then [ConfigAsyncMode] else [];
    assert FrameEvents(id, baud) == head + mode + [Enable, WaitAck];
    RunConcat3(p, head, mode, [Enable, WaitAck]);
    FrameHeadReplays(p, ps);
    var q := p.(prescaler := Div1, dirEnabled := PerDir(true, true));
    assert ps.prescaler == Div1 && TransferDirs(ps.direction) == PerDir(true, true);
    assert Run(p, head) == q;
    FrameModeReplays(id, q);
    assert Run(Run(p, head), mode) == q;
    FrameTailReplays(q);
  }

  lemma BringUpReplays(id: SerialId, p: PortState, baud: u32)
    ensures Run(p, BringUpEvents(id, baud)) == BroughtUp(id, p)
  {
    var a := [BusEnable, SetClockSource(ClockSourceOf(id))];
    var q1 := p.(busEnabled := true);
    var q2 := q1.(pins := BothPins(AltPin(id)));
    RunConcat3(p, a, PinWrites(id, AltPin(id)), FrameEvents(id, baud));
    PowerUpReplays(id, p);
    PinWritesReplays(id, q1, AltPin(id));
    FrameReplays(id, q2, baud);
  }

  /** The error-interrupt disable has no modelled effect. */
  lemma ErrorIrqReplays(p: PortState)
    ensures Run(p, [DisableErrorIrq]) == p
  {
    Run1(p, DisableErrorIrq);
    assert Apply(p, DisableErrorIrq) == p;
  }

  /** Initialisation is the bring-up followed by a baud change on the
      freshly enabled port and the error-interrupt disable. */
  lemma InitReplays(id: SerialId, p: PortState, clk: u32, baud: u32)
    requires id == Lpuart ==> baud > 0
    ensures Replays(p, Init(id, p, clk, baud))
  {
    var q := BroughtUp(id, p);
    var br := SetBaudRate(id, q, clk, baud);
    RunConcat3(p, BringUpEvents(id, baud), br.trace, [DisableErrorIrq]);
    BringUpReplays(id, p, baud);
    SetBaudRateReplays(id, q, clk, baud);
    ErrorIrqReplays(br.port);
  }

  // ----- Teardown -----------------------------------------------------------

  lemma PowerDownReplays(p: PortState)
    ensures Run(p, PowerDownEvents(p.busEnabled, p.enabled)) == p.(busEnabled := false, enabled := false)
  {
    var q := p.(busEnabled := false);
    if p.busEnabled && p.enabled {
      Run2(p, BusDisable, Disable);
      assert Apply(p, BusDisable) == q;
      assert Apply(q, Disable) == q.(enabled := false);
    } else if p.busEnabled {
      Run1(p, BusDisable);
      assert Apply(p, BusDisable) == q;
    } else if p.enabled {
      Run1(p, Disable);
      assert Apply(p, Disable) == p.(enabled := false);
    }
  }

  /** Teardown is the unregistration, the switch-off and the pin release,
      replayed in turn. */
  lemma DeinitReplays(id: SerialId, p: PortState)
    ensures Replays(p, Deinit(id, p))
  {
    var un := SetRxCallback(id, p, NULL, NULL);
    var q := un.port;
    RunConcat3(p, un.trace, PowerDownEvents(q.busEnabled, q.enabled), PinWrites(id, AnalogNoPullLow));
    SetRxCallbackReplays(id, p, NULL, NULL);
    PowerDownReplays(q);
    PinWritesReplays(id, q.(busEnabled := false, enabled := false), AnalogNoPullLow);
  }

  // ----- Transmit -----------------------------------------------------------

  /** Replaying the transmit loop leaves the transmit flags cleared by the
      last write, and nothing else changed; an empty buffer changes
      nothing. */
  lemma {:induction false} TxEventsReplays(q: PortState, buf: seq<byte>)
    ensures Run(q, TxEvents(buf)) == if buf == [] then q else q.(txe := false, tc := false)
    decreases |buf|
  {
    if buf != [] {
      var head := [WaitTXE, Write(buf[0])];
      var q' := q.(txe := false, tc := false);
      assert TxEvents(buf) == head + TxEvents(buf[1..]);
      RunAppend(q, head, TxEvents(buf[1..]));
      Run2(q, WaitTXE, Write(buf[0]));
      assert Apply(q, WaitTXE) == q.(txe := true);
      assert Apply(q.(txe := true), Write(buf[0])) == q';
      TxEventsReplays(q', buf[1..]);
      assert q'.(txe := false, tc := false) == q';
    }
  }

  lemma TransmitReplays(p: PortState, buf: seq<byte>)
    ensures Replays(p, Transmit(p, buf))
  {
    if p.enabled {
      TxEventsReplays(p, buf);
    }
  }
}

=== FILE: serial.dfy ===
/** The public operations of the serial driver, each a pure transition of
    one port that returns the port afterwards and the events it issued.

    A null or invalid handle aborts in the driver; here the port is named
    by a `SerialId`, which cannot be null or out of range. The input clock
    frequency read from the clock controller is the parameter `clk`. */
module Serial {
  import opened SerialTypes
  import opened SerialConfig
  import opened Hardware
  import opened BaudRate

  /** The interrupt vector of each port. */
  function IrqOf(id: SerialId): InterruptId {
    match id
    case Usart => InterruptUart1
    case Lpuart => InterruptLpuart1
  }

  /** The interrupt handler the driver installs for each port. */
  function HandlerOf(id: SerialId): IsrHandler {
    match id
    case Usart => UsartIrqHandler
    case Lpuart => LpuartIrqHandler
  }

  /** Frame format of the vendor initialisation: 8 data bits, 1 stop bit, no
      parity, both directions, no hardware flow control, kernel clock
      undivided; the USART also selects 16x oversampling. */
  function InitParamsOf(id: SerialId, baud: u32): InitParams {
    InitParams(Div1, baud, DataWidth8, StopBits1, ParityNone, TransferTxRx, FlowNone,
               if id == Usart then Some(Oversampling16) else None)
  }

  /** Both pins of a port in one configuration. */
  function BothPins(c: PinConfig): PerDir<PinConfig> {
    PerDir(c, c)
  }

  /** The alternate-function configuration of a port's pins. */
  function AltPin(id: SerialId): PinConfig {
    AltFunctionPushPullUpVeryHigh(Table(id).altFn)
  }

  // ----- Baud-rate negotiation -------------------------------------------

  /** The prescaler a baud change selects: the USART always runs from the
      undivided clock, the LPUART falls back to division by 32. */
  function BaudPrescaler(id: SerialId, clk: u32, baud: u32): (r: Prescaler)
    requires id == Lpuart ==> baud > 0
    ensures r == Div1 || r == Div32
    ensures r == Div32 <==> id == Lpuart && clk / baud > LpuartDiv1Limit
  {
    if id == Usart then Div1 else LpuartPrescaler(clk, baud)
  }

  /** The arguments of the vendor baud-rate call: the queried clock and the
      requested rate as given; the USART passes the undivided clock and 16x
      oversampling, the LPUART no oversampling mode and DIV32 exactly when
      the clock reaches 4096 times the rate. */
  function BaudSettingOf(id: SerialId, clk: u32, baud: u32): (r: BaudSetting)
    requires id == Lpuart ==> baud > 0
    ensures r.clk == clk && r.baud == baud
    ensures id == Usart ==> r.prescaler == Div1 && r.oversampling == Some(Oversampling16)
    ensures id == Lpuart ==>
      && r.oversampling == None
      && (r.prescaler == Div1 || r.prescaler == Div32)
      && (r.prescaler == Div32 <==> clk as int >= 4096 * baud as int)
  {
    BaudSetting(clk, BaudPrescaler(id, clk, baud), if id == Usart then Some(Oversampling16) else None, baud)
  }

  /** The events of a baud change on an enabled port: the wait for
      transfer complete, disable, (LPUART only) the prescaler, the divisor,
      enable. */
  function BaudEvents(id: SerialId, clk: u32, baud: u32): (r: seq<Event>)
    requires id == Lpuart ==> baud > 0
    ensures |r| >= 4 && r[0] == WaitTC && r[1] == Disable && r[|r| - 1] == Enable
    ensures r[|r| - 2] == ProgramBaudRate(BaudSettingOf(id, clk, baud))
    ensures id == Usart ==> |r| == 4
    ensures id == Lpuart ==> |r| == 5 && r[2] == SetPrescaler(BaudPrescaler(id, clk, baud))
  {
    var bs := BaudSettingOf(id, clk, baud);
    match id
    case Usart => [WaitTC, Disable, ProgramBaudRate(bs), Enable]
    case Lpuart => [WaitTC, Disable, SetPrescaler(bs.prescaler), ProgramBaudRate(bs), Enable]
  }

  /** Reprograms the baud rate of an enabled port; a disabled port is left
      alone. The transfer-complete wait comes first, then the peripheral is
      disabled, then the divisor changes, then the peripheral is enabled
      again. The USART passes the undivided clock and 16x oversampling and
      keeps its prescaler; the LPUART divides its clock by 32 exactly when
      `clk / baud` exceeds 4095, which needs a non-zero baud. */
  function SetBaudRate(id: SerialId, p: PortState, clk: u32, baud: u32): (r: Step)
    requires id == Lpuart && p.enabled ==> baud > 0
    ensures !p.enabled ==> r == Start(p)
    ensures p.enabled ==> r.trace == BaudEvents(id, clk, baud)
    ensures p.enabled ==> r.port.prescaler == (if id == Usart then p.prescaler else BaudPrescaler(id, clk, baud))
    ensures p.enabled ==>
      r.port == p.(tc := true, prescaler := r.port.prescaler, lastBaud := Some(BaudSettingOf(id, clk, baud)))
  {
    if !p.enabled then Start(p)
    else
      var bs := BaudSettingOf(id, clk, baud);
      match id
      case Usart => Step(p.(tc := true, lastBaud := Some(bs)), BaudEvents(id, clk, baud))
      case Lpuart => Step(p.(tc := true, prescaler := bs.prescaler, lastBaud := Some(bs)), BaudEvents(id, clk, baud))
  }

  // ----- Lifecycle -------------------------------------------------------

  /** The kernel clock each port is switched to: the APB2 clock for the
      USART, the APB1 clock for the LPUART. */
  function ClockSourceOf(id: SerialId): ClockSource {
    if id == Usart then ClockPclk2 else ClockPclk1
  }

  /** Writes one configuration to both pins of a port, in the driver's
      order: the USART transmit pin first, the LPUART receive pin (PC0)
      first. */
  function PinWrites(id: SerialId, c: PinConfig): (r: seq<Event>)
    ensures |r| == 2 && r[0] != r[1]
    ensures forall d :: PinInit(GetGpioPin(id, d), c) in r
    ensures forall e :: e in r ==> e.PinInit? && e.config == c && PinPort(e.pin) == id
  {
    match id
    case Usart => [PinInit(GpioUsartTx, c), PinInit(GpioUsartRx, c)]
    case Lpuart => [PinInit(GpioExtPc0, c), PinInit(GpioExtPc1, c)]
  }

  /** The peripheral set-up of a bring-up: frame format, FIFO,
      asynchronous mode on the USART only, enable, and the wait for both
      enable acknowledges. */
  function FrameEvents(id: SerialId, baud: u32): (r: seq<Event>)
    ensures |r| >= 4 && r[0] == InitPeripheral(InitParamsOf(id, baud)) && r[1] == EnableFifo
    ensures r[|r| - 2] == Enable && r[|r| - 1] == WaitAck
    ensures ConfigAsyncMode in r <==> id == Usart
  {
    [InitPeripheral(InitParamsOf(id, baud)), EnableFifo]
    + (if id == Usart then [ConfigAsyncMode] else [])
    + [Enable, WaitAck]
  }

  /** The bring-up before the baud rate is applied: bus clock and clock
      source, both pins to the port's alternate function, then the
      peripheral set-up. */
  function BringUpEvents(id: SerialId, baud: u32): (r: seq<Event>)
    ensures |r| >= 8 && r[0] == BusEnable && r[1] == SetClockSource(ClockSourceOf(id))
    ensures r[2..4] == PinWrites(id, AltPin(id)) && r[4..] == FrameEvents(id, baud)
  {
    var t := [BusEnable, SetClockSource(ClockSourceOf(id))] + PinWrites(id, AltPin(id)) + FrameEvents(id, baud);
    assert t[4..] == FrameEvents(id, baud) && t[2..4] == PinWrites(id, AltPin(id));
    t
  }

  /** The state the bring-up leaves before the baud rate is applied: bus
      clock on, enabled with both directions, both pins on the table's
      alternate function, kernel clock undivided. */
  function BroughtUp(id: SerialId, p: PortState): PortState {
    p.(busEnabled := true, enabled := true, dirEnabled := PerDir(true, true),
       pins := BothPins(AltPin(id)), prescaler := Div1)
  }

  /** Brings a port up at `baud`, whatever state it was in: the bring-up,
      then the baud change on the freshly enabled port, then the
      error-interrupt disable. Afterwards the bus clock is on, the port is
      enabled with both directions on, both pins carry the table's
      alternate function, the requested rate is the last one programmed,
      and the kernel clock is divided by 32 exactly on an LPUART whose clock
      is at least 4096 times the rate. The suspend flag, the callback
      registration, the interrupt wiring and the receive flags are not
      touched. */
  function Init(id: SerialId, p: PortState, clk: u32, baud: u32): (r: Step)
    requires id == Lpuart ==> baud > 0
    ensures r.port.busEnabled && r.port.enabled && r.port.tc
    ensures r.port.dirEnabled == PerDir(true, true) && r.port.pins == BothPins(AltPin(id))
    ensures r.port.lastBaud == Some(BaudSettingOf(id, clk, baud))
    ensures r.port.prescaler == Div1 || r.port.prescaler == Div32
    ensures r.port.prescaler == Div32 <==> id == Lpuart && clk as int >= 4096 * baud as int
    ensures r.port.(busEnabled := p.busEnabled, enabled := p.enabled, dirEnabled := p.dirEnabled, pins := p.pins,
                    prescaler := p.prescaler, lastBaud := p.lastBaud, tc := p.tc) == p
    ensures r.trace == BringUpEvents(id, baud) + BaudEvents(id, clk, baud) + [DisableErrorIrq]
  {
    var br := SetBaudRate(id, BroughtUp(id, p), clk, baud);
    Step(br.port, BringUpEvents(id, baud) + br.trace + [DisableErrorIrq])
  }

  /** The switch-off events of a teardown: the bus clock off if it was
      on, then the peripheral off if it was enabled. */
  function PowerDownEvents(busOn: bool, on: bool): (r: seq<Event>)
    ensures |r| == (if busOn then 1 else 0) + (if on then 1 else 0)
    ensures BusDisable in r <==> busOn
    ensures Disable in r <==> on
    ensures busOn && on ==> r == [BusDisable, Disable]
  {
    (if busOn then [BusDisable] else []) + (if on then [Disable] else [])
  }

  /** Tears a port down: the receive callback is unregistered first, then
      the bus clock is switched off if it was on, then the peripheral if it
      was enabled, and both pins are always returned to analog. The suspend
      flag, prescaler, last baud setting and direction bits survive. */
  function Deinit(id: SerialId, p: PortState): (r: Step)
    ensures |r.trace| == 6 + (if p.busEnabled then 1 else 0) + (if p.enabled then 1 else 0)
    ensures r.trace[..4] == SetRxCallback(id, p, NULL, NULL).trace
    ensures r.trace[4..|r.trace| - 2] == PowerDownEvents(p.busEnabled, p.enabled)
    ensures r.trace[|r.trace| - 2..] == PinWrites(id, AnalogNoPullLow)
    ensures r.port == p.(busEnabled := false, enabled := false, pins := BothPins(AnalogNoPullLow),
                         isrAttached := false, rxIrqEnabled := false, callback := NULL, context := NULL)
  {
    var un := SetRxCallback(id, p, NULL, NULL);
    var q := un.port;
    var off := PowerDownEvents(q.busEnabled, q.enabled);
    var t := un.trace + off + PinWrites(id, AnalogNoPullLow);
    assert t[..4] == un.trace && t[4..|t| - 2] == off && t[|t| - 2..] == PinWrites(id, AnalogNoPullLow);
    Step(q.(busEnabled := false, enabled := false, pins := BothPins(AnalogNoPullLow)), t)
  }

  /** Power-saving stop: an enabled port is disabled and remembered as
      enabled; a disabled port is left exactly as it is, flag included.
      Nothing but the enable bit and the flag changes. */
  function Suspend(p: PortState): (r: Step)
    ensures !r.port.enabled
    ensures r.port.prevEnabled == (p.enabled || p.prevEnabled)
    ensures r.port == p.(enabled := false, prevEnabled := r.port.prevEnabled)
    ensures p.enabled ==> r.trace == [Disable, StorePrevEnabled(true)]
    ensures !p.enabled ==> r == Start(p)
  {
    if p.enabled then Step(p.(enabled := false, prevEnabled := true), [Disable, StorePrevEnabled(true)])
    else Start(p)
  }

  /** Restart after a suspend: when the flag is set the port is enabled and
      the flag cleared; otherwise nothing happens. Nothing but the enable
      bit and the flag changes. */
  function Resume(p: PortState): (r: Step)
    ensures !r.port.prevEnabled
    ensures r.port.enabled == (p.enabled || p.prevEnabled)
    ensures r.port == p.(enabled := r.port.enabled, prevEnabled := false)
    ensures p.prevEnabled ==> r.trace == [Enable, StorePrevEnabled(false)]
    ensures !p.prevEnabled ==> r == Start(p)
  {
    if !p.prevEnabled then Start(p)
    else Step(p.(enabled := true, prevEnabled := false), [Enable, StorePrevEnabled(false)])
  }

  // ----- Transmit path ---------------------------------------------------

  /** The transmit loop's events: for each byte, one wait for an empty
      transmit register, then the write of that byte. */
  function TxEvents(buf: seq<byte>): seq<Event> {
    if buf == [] then [] else [WaitTXE, Write(buf[0])] + TxEvents(buf[1..])
  }

  /** The loop issues exactly two events per byte: the wait, then the
      write of that very byte. */
  lemma {:induction false} TxEventsShape(buf: seq<byte>)
    ensures |TxEvents(buf)| == 2 * |buf|
    ensures forall i :: 0 <= i < |buf| ==>
      TxEvents(buf)[2 * i] == WaitTXE && TxEvents(buf)[2 * i + 1] == Write(buf[i])
  {
    if buf != [] {
      TxEventsShape(buf[1..]);
      var t := TxEvents(buf);
      assert t == [WaitTXE, Write(buf[0])] + TxEvents(buf[1..]);
      forall i | 1 <= i < |buf|
        ensures t[2 * i] == WaitTXE && t[2 * i + 1] == Write(buf[i])
      {
        assert buf[i] == buf[1..][i - 1];
        assert t[2 * i] == TxEvents(buf[1..])[2 * (i - 1)];
        assert t[2 * i + 1] == TxEvents(buf[1..])[2 * (i - 1) + 1];
      }
    }
  }

  /** Blocking transmit. On a disabled port the bytes are dropped and no
      register is touched; otherwise every byte is written once, in order,
      each after its own wait for an empty transmit register. */
  function Transmit(p: PortState, buf: seq<byte>): (r: Step)
    ensures !p.enabled || buf == [] ==> r == Start(p)
    ensures p.enabled ==> |r.trace| == 2 * |buf|
    ensures p.enabled ==> forall i :: 0 <= i < |buf| ==>
      r.trace[2 * i] == WaitTXE && r.trace[2 * i + 1] == Write(buf[i])
    ensures p.enabled && buf != [] ==> r.port == p.(txe := false, tc := false)
  {
    TxEventsShape(buf);
    if !p.enabled || buf == [] then Start(p)
    else Step(p.(txe := false, tc := false), TxEvents(buf))
  }

  /** Waits for the last frame to leave the shift register; a no-op when
      the port is disabled. */
  function TxWaitComplete(p: PortState): (r: Step)
    ensures !p.enabled ==> r == Start(p)
    ensures p.enabled ==> r.trace == [WaitTC] && r.port.tc
    ensures r.port == p.(tc := r.port.tc)
  {
    if !p.enabled then Start(p) else Step(p.(tc := true), [WaitTC])
  }

  // ----- Receive dispatch ------------------------------------------------

  /** The port's interrupt handler. A received byte is read (which clears
      the receive flag) and handed with the stored context to the stored
      callback, exactly once; otherwise a pending overrun is cleared with
      no callback; otherwise nothing happens. Calling through a null
      callback would fault, hence the requirement. */
  function IrqHandler(p: PortState): (r: Step)
    requires p.rxne ==> p.callback != NULL
    ensures p.rxne ==>
      && !r.port.rxne && r.port.ore == p.ore
      && r.trace == [ReadData(p.rdr), InvokeCallback(p.callback, p.rdr, p.context)]
    ensures !p.rxne && p.ore ==> !r.port.ore && r.trace == [ClearOverrun]
    ensures !p.rxne && !p.ore ==> r == Start(p)
    ensures r.port == p.(rxne := r.port.rxne, ore := r.port.ore)
  {
    if p.rxne then
      var data := p.rdr;
      Step(p.(rxne := false), [ReadData(data), InvokeCallback(p.callback, data, p.context)])
    else if p.ore then Step(p.(ore := false), [ClearOverrun])
    else Start(p)
  }

  /** Registers (`cb != NULL`) or unregisters (`cb == NULL`) the receive
      callback. Registering stores context and callback before the handler
      is attached and the receive interrupt enabled; unregistering detaches
      the handler and disables the interrupt before the stored values are
      overwritten. The context is stored as given in both cases. */
  function SetRxCallback(id: SerialId, p: PortState, cb: Ptr, ctx: Ptr): (r: Step)
    ensures cb == NULL ==>
      r.trace == [SetIsr(IrqOf(id), None), DisableRxIrq, StoreCallback(NULL), StoreContext(ctx)]
    ensures cb != NULL ==>
      r.trace == [StoreContext(ctx), StoreCallback(cb), SetIsr(IrqOf(id), Some(HandlerOf(id))), EnableRxIrq]
    ensures r.port.isrAttached == (cb != NULL) && r.port.rxIrqEnabled == (cb != NULL)
    ensures r.port.callback == cb && r.port.context == ctx
    ensures r.port == p.(isrAttached := r.port.isrAttached, rxIrqEnabled := r.port.rxIrqEnabled,
                         callback := cb, context := ctx)
  {
    var q := p.(isrAttached := cb != NULL, rxIrqEnabled := cb != NULL, callback := cb, context := ctx);
    if cb == NULL then
      Step(q, [SetIsr(IrqOf(id), None), DisableRxIrq, StoreCallback(cb), StoreContext(ctx)])
    else
      Step(q, [StoreContext(ctx), StoreCallback(cb), SetIsr(IrqOf(id), Some(HandlerOf(id))), EnableRxIrq])
  }

  // ----- Direction control -----------------------------------------------

  /** Switches one direction on through the table's routine and routes its
      pin to the port's alternate function. The other direction and every
      other field are unchanged. */
  function EnableDirection(id: SerialId, p: PortState, d: Direction): (r: Step)
    ensures r.trace == [ControlDirection(EnableDir(Table(id).periph, d)), PinInit(GetGpioPin(id, d), AltPin(id))]
    ensures r.port.dirEnabled.Get(d)
    ensures r.port.pins.Get(d) == AltFunctionPushPullUpVeryHigh(Table(id).altFn)
    ensures r.port.dirEnabled.Get(d.Other()) == p.dirEnabled.Get(d.Other())
    ensures r.port.pins.Get(d.Other()) == p.pins.Get(d.Other())
    ensures r.port == p.(dirEnabled := r.port.dirEnabled, pins := r.port.pins)
  {
    var cfg := Table(id);
    Step(p.(dirEnabled := p.dirEnabled.Set(d, true), pins := p.pins.Set(d, AltPin(id))),
         [ControlDirection(cfg.enable.Get(d)), PinInit(cfg.gpio.Get(d), AltFunctionPushPullUpVeryHigh(cfg.altFn))])
  }

  /** Switches one direction off through the table's routine and idles its
      pin as analog. The other direction and every other field are
      unchanged. */
  function DisableDirection(id: SerialId, p: PortState, d: Direction): (r: Step)
    ensures r.trace == [ControlDirection(DisableDir(Table(id).periph, d)), PinInit(GetGpioPin(id, d), AnalogNoPullLow)]
    ensures !r.port.dirEnabled.Get(d)
    ensures r.port.pins.Get(d) == AnalogNoPullLow
    ensures r.port.dirEnabled.Get(d.Other()) == p.dirEnabled.Get(d.Other())
    ensures r.port.pins.Get(d.Other()) == p.pins.Get(d.Other())
    ensures r.port == p.(dirEnabled := r.port.dirEnabled, pins := r.port.pins)
  {
    var cfg := Table(id);
    Step(p.(dirEnabled := p.dirEnabled.Set(d, false), pins := p.pins.Set(d, AnalogNoPullLow)),
         [ControlDirection(cfg.disable.Get(d)), PinInit(cfg.gpio.Get(d), AnalogNoPullLow)])
  }
}

=== FILE: types.dfy ===
/** Basic vocabulary shared by the serial driver model: fixed-width integers,
    the two logical ports, the two signal directions, and the small tables
    indexed by them. */
module SerialTypes {

  /** `uint32_t`, the width of baud rates and clock frequencies. */
  newtype u32 = x: int | 0 <= x < 0x1_0000_0000

  /** `uint8_t`, one data-register byte. */
  newtype byte = x: int | 0 <= x < 0x100

  /** A 32-bit address: a callback or a context pointer. */
  newtype Ptr = x: int | 0 <= x < 0x1_0000_0000

  const NULL: Ptr := 0

  datatype Option<+T> = None | Some(value: T)

  /** The two logical serial ports; the set is closed, so an out-of-range
      identifier cannot be written down. */
  datatype SerialId = Usart | Lpuart {
    function Other(): SerialId {
      if Usart? then Lpuart else Usart
    }
  }

  /** Transmit or receive signal path. */
  datatype Direction = Tx | Rx {
    function Other(): Direction {
      if Tx? then Rx else Tx
    }
  }

  /** A value for each direction. */
  datatype PerDir<T> = PerDir(tx: T, rx: T) {

    function Get(d: Direction): T {
      match d
      case Tx => tx
      case Rx => rx
    }

    /** Replaces the entry of `d`; the other direction keeps its entry. */
    function Set(d: Direction, v: T): (r: PerDir<T>)
      ensures r.Get(d) == v
      ensures r.Get(d.Other()) == Get(d.Other())
    {
      match d
      case Tx => this.(tx := v)
      case Rx => this.(rx := v)
    }
  }

  /** A value for each logical port. */
  datatype PerPort<T> = PerPort(usart: T, lpuart: T) {

    function Get(id: SerialId): T {
      match id
      case Usart => usart
      case Lpuart => lpuart
    }

    /** Replaces the entry of `id`; the other port keeps its entry. */
    function Set(id: SerialId, v: T): (r: PerPort<T>)
      ensures r.Get(id) == v
      ensures r.Get(id.Other()) == Get(id.Other())
    {
      match id
      case Usart => this.(usart := v)
      case Lpuart => this.(lpuart := v)
    }
  }
}
